=== FILE: README.md ===
# kcptun SOCKS5 front ends in Dafny

This project models the SOCKS5 handling of kcptun as pure Dafny functions and
proves properties of it. kcptun is a TCP tunnel over KCP, written in Go. The
model covers three parts.

- **The client's SOCKS5 front end** (`client/trans.go`):
  - the method-selection handshake `handShake`, which always answers "no authentication";
  - the CONNECT request parser `getRequest`;
  - the order in which `handleSocks5Client` writes to the local client and to the mux stream;
  - the decoding of the kernel's original-destination structure in `getOriginalDst`, used for transparently redirected connections.
- **The standalone SOCKS5 server** (`socks5/main.go`):
  - `socks5ServerSel` peeks two bytes and routes `05 01` to the library server;
  - every other connection goes to `handleSocks5`;
  - that handler parses a pre-framed request, which starts directly at ATYP, with `getRequest`;
  - it dials the destination and forwards the `extra` bytes the first read picked up.
- **The client configuration defaults** (`client/config.go`): the placeholder
  addresses and key that `parseJsonConfig` replaces with values derived from
  the shadowsocks-style fields.

A connection's input is modelled as a byte sequence. Each Go read becomes a
function of that sequence and of `arrived`, the number of bytes already there
when the read is issued. A read ends in EOF or unexpected EOF only where the
sequence runs out, so a read error of any other kind is modelled as the input
ending at that point. Writes and dials that may fail take a boolean
parameter. IPv6 text (`net.IP.String` of 16 bytes) is a function parameter
`ip6Text`.

Modules:

- `octets.dfy`: bytes, `Option`, `Result`, and 16-bit big-endian fields.
- `text.dfy`: `strconv.Itoa`, dotted-quad text and `net.JoinHostPort`, each with a reference parser that undoes it.
- `stream.dfy`: `io.ReadAtLeast` and `io.ReadFull`.
- `address.dfy`: the ATYP..PORT span shared by both request parsers.
- `trans.dfy`: the client's front end.
- `server.dfy`: the standalone server.
- `config.dfy`: the defaults.

Some details of the code that a reader familiar with SOCKS5 may not expect, all of which the model follows:

- The success reply the client sends is `05 00 00 01 00 00 00 00 08 43`. Its bound port is 0x0843, not zero.
- The client's request parser rejects surplus bytes in its first read with `errReqExtraData`. It does not hand them on.
- Only `05 01` reaches the library server. A greeting such as `05 02 ..` goes to `handleSocks5`, which rejects ATYP 5.
- `getOriginalDst` passes its error back to the caller, and the caller drops the connection.

## Model

| member | source | states |
|---|---|---|
| Octets.PutBigEndian16 | client/trans.go:186 | the two port bytes written for a 16-bit value read back, as binary.BigEndian.Uint16, as that value |
| Octets.PutBigEndian16Inverse | client/trans.go:186 | reading any two-byte port field and re-encoding its value gives back the same two bytes |
| Octets.BigEndian16 | client/trans.go:186 | a two-byte field read in network order is a 16-bit value; PutBigEndian16Inverse shows that no two fields give the same value |
| Octets.Latin1Injective | client/trans.go:184 | Go's string(bytes) keeps every byte, in order, as the character with that code, so different names give different host strings |
| Text.Decimal | client/trans.go:187 | strconv.Itoa of a non-negative value is a non-empty run of decimal digits that starts with '0' only for zero |
| Text.Itoa | client/trans.go:187 | strconv.Itoa text is non-empty and starts with '-' exactly for negative values; ItoaRoundTrip fixes its value |
| Text.ParseCanonicalUnique | client/trans.go:187 | a decimal without a leading zero is the one text Itoa prints for its value |
| Text.DecimalRoundTrip | client/trans.go:187 | the digits printed for n parse back to n |
| Text.ItoaRoundTrip | client/trans.go:187 | every integer, negative ones included, printed by Itoa is read back by Atoi |
| Text.DottedQuadRoundTrip | client/trans.go:180 | the dotted-decimal text of a four-byte IP splits into four canonical decimal fields that read back as the same four bytes |
| Text.DottedQuad | client/trans.go:180 | net.IP.String of four bytes never contains ':', so JoinHostPort never brackets it |
| Text.DottedQuadUnique | client/trans.go:180 | a text that reads back as four bytes is exactly the dotted quad of those bytes, with no leading zeros |
| Text.JoinSplit | client/trans.go:180 | joining the fields Split cut from a text with the separator gives back the text |
| Text.SplitJoin | client/trans.go:180 | splitting text joined from separator-free fields gives back exactly those fields |
| Text.LoopbackText | client/trans.go:180 | the four bytes 127, 0, 0, 1 print as "127.0.0.1", and 8080 prints as "8080" |
| Text.UnbracketedIpv6Rejected | client/config.go:58 | the reference splitter does not split "::1:443" into host and port, because the host part left of the last colon still contains colons |
| Text.JoinHostPortLayout | client/trans.go:187 | net.JoinHostPort writes the host, in brackets exactly when it contains a colon, then a colon and the port |
| Text.JoinSplitRoundTrip | client/trans.go:187 | net.JoinHostPort is undone by the reference host:port splitter whenever the port has no colon and a colon-free host is not already bracketed |
| Text.JoinNamesEndpoint | client/trans.go:267 | joining an IPv4 text with a decimal port gives a string whose part before the last colon reads back as that address and whose part after it reads back as that port |
| Text.NamesEndpointUnique | client/trans.go:267 | only one string names an IPv4 endpoint: the dotted quad, a colon and the decimal port, exactly as JoinHostPort and Itoa write them |
| Text.LeadingZeroRejected | client/trans.go:267 | "127.0.0.01:8080" does not name 127.0.0.1:8080 |
| Stream.ReadAtLeast | client/trans.go:93 | the read fails (EOF if nothing came, unexpected EOF otherwise) exactly when fewer than `min` bytes ever arrive; otherwise it returns a prefix of the input of between `min` and the buffer size bytes, equal to what had arrived when that is in range |
| Stream.ReadFull | client/trans.go:104 | the read succeeds exactly when k bytes remain and then returns exactly the next k bytes |
| Address.Encode | client/trans.go:128-130 | every destination encodes to a span whose length is the one its type byte and length byte announce, with ATYP 1, 3 or 4 first and the port last in network order |
| Address.RawLen | client/trans.go:128-162 | a span length exists exactly for ATYP 1, 3 and 4; it lies between 4 and 259; for a domain it is the length byte plus 4 |
| Address.Decode | client/trans.go:152-162 | a span decodes exactly when it is framed (known type, announced length), and then to a valid destination whose encoding is that span |
| Address.DecodeEncode | client/trans.go:175-187 | every valid IPv4, IPv6 or domain destination survives encoding and decoding unchanged |
| Address.HostAt | client/trans.go:178-187 | the host string computed by index arithmetic from the buffer is the `host:port` text of the destination the span decodes to |
| Address.DomainEndAsWritten | client/trans.go:184 | the byte-typed end index is the sum modulo 256, and whenever the sum wraps the end lies below the start |
| Address.DomainHostAsWritten | client/trans.go:184 | the domain host as the source slices it is a panic exactly when start plus length reaches 256, and otherwise the whole name joined with the port |
| Address.HostAtAsWritten | client/trans.go:184 | with the byte-typed domain end, the host is unavailable (a slice panic) exactly when ATYP is domain and base+2+length reaches 256; otherwise it equals the corrected host |
| Address.LoopbackExample | client/trans.go:178-187 | the destination 127.0.0.1:8080 is `01 7F 00 00 01 1F 90` on the wire and "127.0.0.1:8080" for the dialer |
| Trans.HandShake | client/trans.go:77-113 | fewer than two bytes is a read error; a wrong version is errVer; a first read longer than the greeting is errAuthExtraData; a greeting cut short after the first read is ReadFull's EOF, or unexpected EOF if part of the rest came; success exactly when the version is 5, the greeting is completed and the reply write works, and then the reply is `05 00` and the input resumes right after the greeting; a completed greeting whose reply write fails is the write error; nothing is written on error |
| Trans.HandShakeAcceptsGreeting | client/trans.go:96-112 | any version-5 greeting with any list of up to 255 methods, whose first read ends within the greeting, is answered "no authentication" and consumes exactly the greeting |
| Trans.HandShakeExamples | client/trans.go:93-109 | `05 01 00` is accepted; `04 01 00` is errVer; `05 02 00 00 FF` read at once is errAuthExtraData |
| Trans.RequestLen | client/trans.go:151-162 | a request length exists exactly for a known ATYP, is the header plus the span length, and always fits the 263-byte buffer |
| Trans.CompleteRequest | client/trans.go:164-173 | after the first read of n bytes, the frame is complete exactly when n does not pass reqLen and reqLen bytes exist; surplus is errReqExtraData; a request cut short is ReadFull's EOF, or unexpected EOF if part of the rest came; the frame is then the first reqLen bytes of the input |
| Trans.ReadRequest | client/trans.go:138-173 | read errors, then version, command and address type are checked in that order; surplus bytes in the first read are errReqExtraData; a request cut short after the first read is ReadFull's EOF or unexpected EOF; success exactly when the first read stays within the request and the request is complete, and then the frame is the first reqLen bytes and the input resumes after it |
| Trans.ReadRequestFramed | client/trans.go:164-175 | an accepted frame followed by the remaining input is the input, and its ATYP..PORT part is exactly as long as its first two bytes announce |
| Trans.GetRequest | client/trans.go:115-191 | the checks run in the order read, version, command, address type; surplus bytes in the first read are errReqExtraData; a request cut short after the first read is ReadFull's EOF or unexpected EOF; success exactly when the first read stays within the request and the request is complete; then rawaddr is the ATYP..PORT slice of the input, the input resumes right after it, and host is the `host:port` text of the destination it decodes to |
| Trans.GetRequestAsWritten | client/trans.go:184 | the source's parser panics exactly when the request is framed and names a domain of 251 bytes or more; in every other case it returns what GetRequest returns |
| Trans.GetRequestRoundTrip | client/trans.go:115-191 | a CONNECT request for any valid destination, with any reserved byte and followed by any payload, yields, when the first read ends within the request, that destination's encoding, its `host:port` text and the untouched payload |
| Trans.RsvIgnored | client/trans.go:141-162 | the reserved byte is never inspected: changing it changes nothing the parser returns |
| Trans.LongDomainPanics | client/trans.go:184 | every CONNECT request for a domain of 251..255 bytes whose first read ends within the request makes the source's parser panic |
| Trans.RequestExample | client/trans.go:138-187 | `05 01 00 01 7F 00 00 01 1F 90` yields rawaddr `01 7F 00 00 01 1F 90` and host "127.0.0.1:8080" |
| Trans.ExtraDataExample | client/trans.go:164-173 | the same request with `AA BB CC` in its first read is errReqExtraData |
| Trans.RequestStage | client/trans.go:55-70 | after the handshake the client hears nothing or the connect reply, and hears the connect reply exactly when relaying starts; the mux stream gets bytes exactly then, namely a decodable address span naming the dialed host, which with the relayed input is the tail of the input; the stage panics exactly when the framed request names a domain of 251 bytes or more, and then nothing is written; a parser error, the panic included, ends the stage with that error and nothing written; after a parsed request, relaying starts exactly when the connect-reply write works, a failed write is the write error with nothing written, and on success the mux stream gets exactly the parsed raw address and the relay carries the parsed host and the input after the request |
| Trans.HandleSocks5Client | client/trans.go:37-75 | the client hears nothing, the method reply, or the method reply followed by the fixed connect reply, and the last exactly when the session reaches relaying; the mux stream gets bytes exactly then, namely a decodable address span for the dialed host, which together with the relayed input forms the tail of the client's input; a failed handshake writes nothing anywhere; after a parser panic the client has heard only the method reply and the mux stream nothing; after a successful handshake the session is the method reply followed by whatever the request stage writes, with the request stage's mux output and result |
| Trans.RequestStageRoundTrip | client/trans.go:55-70 | after the greeting, a CONNECT request for an IP address or a domain shorter than 251 bytes, whose first read ends within the request and which is followed by payload, gets the connect reply; the mux stream gets exactly the request's address span, and the payload is left for the relay |
| Trans.AsWrittenRoundTrip | client/trans.go:115-191 | for an IP address or a domain shorter than 251 bytes, with the first read ending within the request, the parser as written returns the destination's encoding, its `host:port` text and the untouched payload |
| Trans.AfterGreeting | client/trans.go:37-75 | once a well-formed greeting is answered, the session is the request stage on the input after the greeting, with the method reply written first |
| Trans.ClientSessionRoundTrip | client/trans.go:37-75 | greeting, CONNECT request for an IP address or a domain shorter than 251 bytes, and payload, each first read ending within its message, lead to both replies, the mux stream receiving exactly the request's address span, and the payload left for the relay |
| Trans.LongDomainSessionPanics | client/trans.go:37-75 | a session asking for a domain of 251..255 bytes, each first read ending within its message, ends in the slice panic after the method reply, with no connect reply and nothing sent to the mux stream |
| Trans.GetOriginalDst | client/trans.go:251-269 | a lookup error is passed on; otherwise the result names the IPv4 address in bytes 4..8 and the network-order port in bytes 2..4, a text that NamesEndpointUnique pins to the dotted quad, a colon and the decimal port |
| Trans.OriginalDstIgnoresOtherBytes | client/trans.go:266-267 | only bytes 2..8 of the structure affect the result |
| Trans.OriginalDstRoundTrip | client/trans.go:266-267 | the structure filled for a connection to ip:port decodes to a string naming exactly ip:port |
| Server.CompleteFrame | socks5/main.go:172-179 | after the first read of n bytes, the frame is complete exactly when reqLen bytes exist; otherwise the error is ReadFull's EOF, or unexpected EOF if part of the rest came; the frame is then the first reqLen bytes, extra is what the first read took past it (empty if nothing), and the input resumes after both |
| Server.ReadRequest | socks5/main.go:155-179 | fewer than two bytes is a read error; an unknown ATYP is "addr type not supported"; a request cut short after the first read is ReadFull's EOF or unexpected EOF; otherwise success, with frame, extra and rest cut as the source cuts them |
| Server.ReadRequestParts | socks5/main.go:155-179 | the frame, the extra bytes and the remaining input concatenate back to the input, and the frame is exactly as long as announced |
| Server.GetRequest | socks5/main.go:133-196 | fewer than two bytes is a read error; an unknown ATYP is "addr type not supported"; a request cut short after the first read is ReadFull's EOF or unexpected EOF; otherwise success, the frame is the request prefix, extra is the part of the first read past it (empty if none), the rest follows both, and host is the `host:port` text of the destination the frame decodes to |
| Server.GetRequestAsWritten | socks5/main.go:190 | the source's parser panics exactly when the request is framed and names a domain of 254 or 255 bytes; in every other case it returns what GetRequest returns |
| Server.GetRequestRoundTrip | socks5/main.go:133-196 | a pre-framed request for any valid destination followed by any payload yields that destination, and extra and the remaining input together are the payload in order; extra is empty when the first read ends within the request |
| Server.LongDomainPanics | socks5/main.go:190 | every pre-framed request for a domain of 254 or 255 bytes makes the source's parser panic |
| Server.RequestExample | socks5/main.go:155-194 | `01 7F 00 00 01 1F 90 AA BB CC` read at once names "127.0.0.1:8080" with extra `AA BB CC` |
| Server.Classify | socks5/main.go:84-90 | the library server gets the connection exactly when the peeked bytes are `05 01` |
| Server.AcceptedRequestsArePreFramed | socks5/main.go:80-92 | every request the pre-framed parser accepts starts with ATYP 1, 3 or 4 and so is routed to it |
| Server.HandleSocks5 | socks5/main.go:94-131 | the client is never written to; a parse error, the slice panic included, dials nothing; the session panics exactly when the framed request names a domain of 254 or 255 bytes; otherwise the parsed host is dialed, and the session reaches relaying exactly when the dial works and any non-empty extra is written successfully; a failed dial is the dial error and a failed write of a non-empty extra is the write error; the remote then receives extra, and extra with the relayed input is the tail of the client's input |
| Server.ServerSel | socks5/main.go:80-92 | fewer than two bytes ends with the peek error; `05 01` hands the whole unconsumed input to the library server; anything else is handled by handleSocks5 |
| Server.PreFramedSessionRoundTrip | socks5/main.go:80-131 | a pre-framed request for an IP address or a domain shorter than 254 bytes, followed by payload, dials its destination, answers the client nothing and delivers the whole payload to the remote, extra first |
| Server.HandleRoundTrip | socks5/main.go:94-131 | handleSocks5 on a pre-framed request for an IP address or a domain shorter than 254 bytes dials its destination and passes the whole payload on, extra first |
| Server.AsWrittenRoundTrip | socks5/main.go:133-196 | on an IP address or a domain shorter than 254 bytes the parser as written returns what the corrected parser returns, and that is a success |
| Server.HandledWhenNotVersion5 | socks5/main.go:80-92 | a connection of at least two bytes whose first byte is not 5 is handed to handleSocks5 |
| Server.LongDomainSessionPanics | socks5/main.go:80-131 | a pre-framed request for a domain of 254 or 255 bytes is handled, panics in the parser, and dials and writes nothing |
| Server.OtherGreetingsRejected | socks5/main.go:84-89 | a version-5 greeting other than `05 01` is routed to the pre-framed parser and rejected as an unknown address type, with nothing dialed or written |
| Config.ApplyDefaults | client/config.go:51-62 | each of localaddr, key, remoteaddr and redir changes only when it is empty or its placeholder (redir: empty with a positive redir_port), and then takes its derived value; no other field changes |
| Config.ApplyDefaultsIdempotent | client/config.go:51-62 | applying the defaults twice is the same as applying them once |
| Config.DefaultLocalAddrNamesPort | client/config.go:51-53 | a defaulted localaddr is ':' followed by text that reads back as socks5_port |
| Config.DefaultRemoteAddrSplits | client/config.go:57-59 | the reference splitter splits a defaulted remoteaddr back into server and server_port when the server is a colon-free, unbracketed host |
| Config.Ipv6ServerIsNotBracketed | client/config.go:57-59 | the concatenation does not bracket, so server "::1" with port 443 yields "::1:443", which the reference splitter rejects |

## Left out

- handleClient (socks5/main.go:54-78): the two-goroutine copy loop is concurrency. The model stops where relaying starts and returns the input left for it.
- The armon/go-socks5 library server that `05 01` connections are handed to is not part of this model. ServerSel records the hand-off.
- GetMreq (client/greq_linux.go) is a getsockopt system call. Its outcome, or the conn.File error, is the `lookup` parameter of GetOriginalDst.
- serverTrans, handleTransConnection, main and the listeners: socket set-up, proxy dialing and logging.
- Dial and write outcomes are boolean parameters. A failed write is modelled as delivering nothing, though a real socket may have sent part of it.
- Trans.HandleSocks5Client: the source ignores the error of the mux write, so the model always counts it as written.
- The bufio.Reader behind the server's Peek may hand back fewer bytes per Read than have arrived. That is covered by `arrived`, because the model lets a read return any amount from `min` up to the available bytes.
- Read deadlines (commented out in the source) and the closing of connections in deferred functions.
- `net.IP.String` for 16-byte addresses is the `ip6Text` parameter. The IPv6 text rules (zero compression, embedded IPv4) are not modelled.
- Go strings are byte strings. The model turns each domain byte into one character, so a domain that is not valid text is carried byte for byte.
- Text.SplitHostPort is a reference splitter used to state what a `host:port` string denotes. It is looser than Go's net.SplitHostPort: it accepts '[' or ']' inside an unbracketed host (it splits "a[b:80"). The lemmas about it are statements about this splitter, not about Go's.
- parseJsonConfig's file opening and JSON decoding (client/config.go:40-49) are I/O. ApplyDefaults starts from the decoded record.
- A slice panic ends the process in Go. The model ends the session with the `SlicePanic` error instead, with the writes made before the panic and none after.
- Stream reads: io.ReadAtLeast and io.ReadFull on a socket can also fail with errors other than EOF, such as a reset connection. The model has no such error. It treats a failed read as the input ending at that point, so the error is reported as EOF or unexpected EOF.

## Findings

| source | as written | input that shows it | evidently intended | confidence | as-written member | corrected member |
|---|---|---|---|---|---|---|
| client/trans.go:184 | `idDm0+buf[idDmLen]` is byte arithmetic, so 5 + length wraps modulo 256 and the slice `buf[5:end]` is inverted for domain lengths 251..255 | `05 01 00 03 FB` followed by 251 name bytes and a port: end = 0 < 5, slice panic | the domain is `buf[5:5+length]` for every length up to 255, as the buffer of 263 bytes allows | high, not executed | Trans.GetRequestAsWritten, Trans.LongDomainPanics, Trans.LongDomainSessionPanics | Trans.GetRequest, Trans.GetRequestRoundTrip |
| socks5/main.go:190 | `idDm0+buf[idDmLen]` is byte arithmetic, so 2 + length wraps modulo 256 and the slice `buf[2:end]` is inverted for domain lengths 254 and 255 | `03 FE` followed by 254 name bytes and a port: end = 0 < 2, slice panic | the domain is `buf[2:2+length]` for every length up to 255, as the buffer of 260 bytes allows | high, not executed | Server.GetRequestAsWritten, Server.LongDomainPanics, Server.LongDomainSessionPanics | Server.GetRequest, Server.GetRequestRoundTrip |

The session functions (Trans.RequestStage, Trans.HandleSocks5Client, Server.HandleSocks5, Server.ServerSel) follow the code as written and call the as-written parsers. Their round-trip lemmas therefore cover domains below the lengths that panic. The corrected parsers prove the intended round trip for every length up to 255. Each as-written parser agrees with its corrected parser on every input that does not panic.

=== FILE: address.dfy ===
/**
 * SOCKS5 destination addresses (section 5 of RFC 1928): the ATYP..PORT span
 * that both request parsers frame, forward and turn into a `host:port`
 * string. The two parsers share the same length table and the same index
 * arithmetic; they differ only in where ATYP sits in their buffer.
 */
module Address {
  import opened Octets
  import Text

  const TypeIPv4: byte := 1
  const TypeDomain: byte := 3
  const TypeIPv6: byte := 4

  const IPv4Len: nat := 4
  const IPv6Len: nat := 16

  /** A destination: an IPv4 or IPv6 address or a domain name, with a port. */
  datatype Addr =
    | IPv4(ip: seq<byte>, port: nat)
    | IPv6(ip: seq<byte>, port: nat)
    | Domain(name: seq<byte>, port: nat)

  predicate Valid(a: Addr) {
    && a.port < 0x1_0000
    && match a
       case IPv4(ip, _) => |ip| == IPv4Len
       case IPv6(ip, _) => |ip| == IPv6Len
       case Domain(name, _) => |name| < 256
  }

  /**
   * The length of the ATYP..PORT span announced by its first two bytes: the
   * type, and (for a domain) the length byte. None for an unknown type.
   */
  function RawLen(atyp: byte, lenByte: byte): (r: Option<nat>)
    ensures r.Some? <==> atyp == TypeIPv4 || atyp == TypeDomain || atyp == TypeIPv6
    ensures r.Some? ==> 1 + 1 + 2 <= r.value <= 1 + 1 + 255 + 2
    ensures atyp == TypeDomain ==> r == Some(lenByte + 4)
  {
    if atyp == TypeIPv4 then Some(1 + IPv4Len + 2)
    else if atyp == TypeIPv6 then Some(1 + IPv6Len + 2)
    else if atyp == TypeDomain then Some(1 + 1 + lenByte + 2)
    else None
  }

  /** The span is exactly as long as its first two bytes announce. */
  predicate Framed(raw: seq<byte>) {
    2 <= |raw| && RawLen(raw[0], raw[1]) == Some(|raw|)
  }

  /** The wire form of a destination, ATYP first and the port last in network order. */
  function Encode(a: Addr): (raw: seq<byte>)
    requires Valid(a)
    ensures Framed(raw)
    ensures raw[0] in {TypeIPv4, TypeDomain, TypeIPv6}
    ensures raw[|raw| - 2..] == PutBigEndian16(a.port)
  {
    match a
    case IPv4(ip, port) => [TypeIPv4] + ip + PutBigEndian16(port)
    case IPv6(ip, port) => [TypeIPv6] + ip + PutBigEndian16(port)
    case Domain(name, port) => [TypeDomain, |name|] + name + PutBigEndian16(port)
  }

  /** Reads a framed span back into a destination; every framed span is the encoding of what it decodes to. */
  function Decode(raw: seq<byte>): (r: Option<Addr>)
    ensures r.Some? <==> Framed(raw)
    ensures r.Some? ==> Valid(r.value) && Encode(r.value) == raw
  {
    if !Framed(raw) then None
    else
      var portField := raw[|raw| - 2..];
      var port := BigEndian16(portField);
      PutBigEndian16Inverse(portField);
      var k := |raw| - 2;
      assert raw == raw[..k] + portField;
      var a :=
        if raw[0] == TypeIPv4 then
          assert raw[..k] == [raw[0]] + raw[1..k];
          IPv4(raw[1..k], port)
        else if raw[0] == TypeIPv6 then
          assert raw[..k] == [raw[0]] + raw[1..k];
          IPv6(raw[1..k], port)
        else
          assert raw[..k] == [raw[0], raw[1]] + raw[2..k];
          Domain(raw[2..k], port);
      Some(a)
  }

  /** Every valid destination survives encoding and decoding unchanged. */
  lemma DecodeEncode(a: Addr)
    requires Valid(a)
    ensures Decode(Encode(a)) == Some(a)
  {
    var raw := Encode(a);
    var b := Decode(raw).value;
    assert Encode(b) == raw;
    match a
    case IPv4(ip, port) =>
      assert raw[1..1 + IPv4Len] == ip;
    case IPv6(ip, port) =>
      assert raw[1..1 + IPv6Len] == ip;
    case Domain(name, port) =>
      assert raw[2..2 + raw[1]] == name;
  }

  /** The host part of the string a parser hands to the dialer; IPv6 text is left to `ip6Text`. */
  function HostText(a: Addr, ip6Text: seq<byte> -> string): string
    requires Valid(a)
  {
    match a
    case IPv4(ip, _) => Text.DottedQuad(ip)
    case IPv6(ip, _) => ip6Text(ip)
    case Domain(name, _) => Latin1(name)
  }

  /** The `host:port` string for a destination, built with net.JoinHostPort and strconv.Itoa. */
  function HostPort(a: Addr, ip6Text: seq<byte> -> string): string
    requires Valid(a)
  {
    Text.JoinHostPort(HostText(a, ip6Text), Text.Itoa(a.port))
  }

  /**
   * The host string both request parsers compute from their buffer `frame`
   * (which ends where the request ends) with ATYP at index `base`: the IP at
   * base+1, the domain length at base+1, the domain at base+2, and the port
   * in the frame's last two bytes. Here the domain end is plain integer
   * arithmetic.
   */
  function HostAt(frame: seq<byte>, base: nat, ip6Text: seq<byte> -> string): (host: string)
    requires base + 2 <= |frame| && Framed(frame[base..])
    ensures host == HostPort(Decode(frame[base..]).value, ip6Text)
  {
    var idIP0, idDmLen, idDm0 := base + 1, base + 1, base + 2;
    var reqLen := |frame|;
    var h :=
      if frame[base] == TypeIPv4 then Text.DottedQuad(frame[idIP0..idIP0 + IPv4Len])
      else if frame[base] == TypeIPv6 then ip6Text(frame[idIP0..idIP0 + IPv6Len])
      else Latin1(frame[idDm0..idDm0 + frame[idDmLen]]);
    var port := BigEndian16(frame[reqLen - 2..reqLen]);
    assert frame[base..][|frame| - base - 2..] == frame[reqLen - 2..reqLen];
    assert frame[base] == TypeIPv4 ==> frame[base..][1..1 + IPv4Len] == frame[idIP0..idIP0 + IPv4Len];
    assert frame[base] == TypeIPv6 ==> frame[base..][1..1 + IPv6Len] == frame[idIP0..idIP0 + IPv6Len];
    assert frame[base] == TypeDomain ==> frame[base..][2..2 + frame[idDmLen]] == frame[idDm0..idDm0 + frame[idDmLen]];
    Text.JoinHostPort(h, Text.Itoa(port))
  }

  /** The destination 127.0.0.1:8080 travels as `01 7F 00 00 01 1F 90` and is dialed as "127.0.0.1:8080". */
  lemma LoopbackExample(ip6Text: seq<byte> -> string)
    ensures Valid(IPv4([0x7F, 0, 0, 1], 8080))
    ensures Encode(IPv4([0x7F, 0, 0, 1], 8080)) == [TypeIPv4, 0x7F, 0, 0, 1, 0x1F, 0x90]
    ensures HostPort(IPv4([0x7F, 0, 0, 1], 8080), ip6Text) == "127.0.0.1:8080"
  {
    assert PutBigEndian16(8080) == [0x1F, 0x90];
    Text.LoopbackText();
  }

  /** The domain branch of HostAt: the name at base+2, as long as the length byte at base+1 says. */
  lemma DomainHostAt(frame: seq<byte>, base: nat, ip6Text: seq<byte> -> string)
    requires base + 2 <= |frame| && Framed(frame[base..]) && frame[base] == TypeDomain
    ensures base + 2 + frame[base + 1] + 2 == |frame|
    ensures HostAt(frame, base, ip6Text)
            == Text.JoinHostPort(Latin1(frame[base + 2..base + 2 + frame[base + 1]]),
                                 Text.Itoa(BigEndian16(frame[|frame| - 2..])))
  {
    assert frame[base..][1] == frame[base + 1];
  }

  /**
   * The domain end index as the source computes it: `idDm0 + buf[idDmLen]`
   * has type byte, so the sum wraps modulo 256. Two bytes add up to less
   * than 512, so the wrap subtracts 256 at most once, and once it does the
   * end falls below the start index.
   */
  function DomainEndAsWritten(idDm0: byte, len: byte): (end: byte)
    ensures end == (idDm0 + len) % 256
    ensures 256 <= idDm0 + len ==> end < idDm0
  {
    if idDm0 + len < 256 then idDm0 + len else idDm0 + len - 256
  }

  /**
   * The domain branch of HostAt with the source's byte-typed domain end.
   * None stands for the runtime panic of slicing `buf[idDm0:end]` with
   * end < idDm0; otherwise the whole name is taken.
   */
  function DomainHostAsWritten(frame: seq<byte>, base: nat, ip6Text: seq<byte> -> string): (r: Option<string>)
    requires base + 2 < 256 && base + 2 <= |frame|
    requires base + 2 + frame[base + 1] + 2 == |frame|
    ensures r.None? <==> 256 <= base + 2 + frame[base + 1]
    ensures r.Some? ==>
              r.value == Text.JoinHostPort(Latin1(frame[base + 2..base + 2 + frame[base + 1]]),
                                           Text.Itoa(BigEndian16(frame[|frame| - 2..])))
  {
    var idDmLen, idDm0 := base + 1, base + 2;
    var end := DomainEndAsWritten(idDm0, frame[idDmLen]);
    if end < idDm0 then None
    else
      var reqLen := |frame|;
      var h := Latin1(frame[idDm0..end]);
      Some(Text.JoinHostPort(h, Text.Itoa(BigEndian16(frame[reqLen - 2..reqLen]))))
  }

  /**
   * HostAt with the source's byte-typed domain end: None, the slice panic,
   * exactly for a domain whose end index wraps. `base + 2` is a byte in the
   * source (an untyped constant added to a byte).
   */
  function HostAtAsWritten(frame: seq<byte>, base: nat, ip6Text: seq<byte> -> string): (r: Option<string>)
    requires base + 2 < 256
    requires base + 2 <= |frame| && Framed(frame[base..])
    ensures r.None? <==> frame[base] == TypeDomain && 256 <= base + 2 + frame[base + 1]
    ensures r.Some? ==> r.value == HostAt(frame, base, ip6Text)
  {
    if frame[base] != TypeDomain then Some(HostAt(frame, base, ip6Text))
    else
      DomainHostAt(frame, base, ip6Text);
      DomainHostAsWritten(frame, base, ip6Text)
  }
}

=== FILE: config.dfy ===
/**
 * The client configuration record (client/config.go) and the defaults that
 * parseJsonConfig fills in once the JSON file has been decoded into it:
 * placeholder addresses and key are replaced by values derived from the
 * shadowsocks-style fields `server`, `server_port`, `password`, `redir_port`
 * and `socks5_port`.
 */
module Config {
  import opened Octets
  import Text

  /** The decoded configuration, one field per JSON key. */
  datatype Config = Config(
    localAddr: string,
    remoteAddr: string,
    key: string,
    crypt: string,
    mode: string,
    conn: int,
    autoExpire: int,
    mtu: int,
    sndWnd: int,
    rcvWnd: int,
    dataShard: int,
    parityShard: int,
    dscp: int,
    noComp: bool,
    ackNodelay: bool,
    noDelay: int,
    interval: int,
    resend: int,
    noCongestion: int,
    sockBuf: int,
    keepAlive: int,
    redir: string,
    server: string,
    serverPort: int,
    password: string,
    redirPort: int,
    socks5Port: int)

  /** The placeholder values that the defaulting treats like an empty field. */
  const PlaceholderLocalAddr: string := ":12948"
  const PlaceholderKey: string := "it's a secrect"
  const PlaceholderRemoteAddr: string := "vps:29900"

  predicate LocalAddrUnset(s: string) {
    s == "" || s == PlaceholderLocalAddr
  }

  predicate KeyUnset(s: string) {
    s == "" || s == PlaceholderKey
  }

  predicate RemoteAddrUnset(s: string) {
    s == "" || s == PlaceholderRemoteAddr
  }

  /** The listen address derived from `socks5_port`. */
  function LocalAddrFor(c: Config): string {
    ":" + Text.Itoa(c.socks5Port)
  }

  /** The remote address derived from `server` and `server_port`: plain concatenation, no brackets. */
  function RemoteAddrFor(c: Config): string {
    c.server + ":" + Text.Itoa(c.serverPort)
  }

  /** The redirect listen address derived from `redir_port`. */
  function RedirFor(c: Config): string {
    ":" + Text.Itoa(c.redirPort)
  }

  /** The fields the defaulting may rewrite, taken from `from`; every other field from `c`. */
  function WithDefaultedFields(c: Config, from: Config): Config {
    c.(localAddr := from.localAddr, key := from.key, remoteAddr := from.remoteAddr, redir := from.redir)
  }

  /** The rewrite parseJsonConfig applies after decoding. */
  function ApplyDefaults(c: Config): (r: Config)
    ensures r.localAddr != c.localAddr ==> LocalAddrUnset(c.localAddr)
    ensures LocalAddrUnset(c.localAddr) ==> r.localAddr == LocalAddrFor(c)
    ensures r.key != c.key ==> KeyUnset(c.key)
    ensures KeyUnset(c.key) ==> r.key == c.password
    ensures r.remoteAddr != c.remoteAddr ==> RemoteAddrUnset(c.remoteAddr)
    ensures RemoteAddrUnset(c.remoteAddr) ==> r.remoteAddr == RemoteAddrFor(c)
    ensures r.redir != c.redir ==> c.redir == "" && c.redirPort > 0
    ensures c.redir == "" && c.redirPort > 0 ==> r.redir == RedirFor(c)
    ensures WithDefaultedFields(c, r) == r && WithDefaultedFields(r, c) == c
  {
    var c1 := if LocalAddrUnset(c.localAddr) then c.(localAddr := LocalAddrFor(c)) else c;
    var c2 := if KeyUnset(c1.key) then c1.(key := c1.password) else c1;
    var c3 := if RemoteAddrUnset(c2.remoteAddr) then c2.(remoteAddr := RemoteAddrFor(c2)) else c2;
    if c3.redir == "" && c3.redirPort > 0 then c3.(redir := RedirFor(c3)) else c3
  }

  /** Defaulting a second time changes nothing. */
  lemma ApplyDefaultsIdempotent(c: Config)
    ensures ApplyDefaults(ApplyDefaults(c)) == ApplyDefaults(c)
  {
    var r := ApplyDefaults(c);
    assert LocalAddrFor(r) == LocalAddrFor(c);
    assert RemoteAddrFor(r) == RemoteAddrFor(c);
    assert RedirFor(r) == RedirFor(c);
    if r.redir == "" {
      assert !(c.redir == "" && c.redirPort > 0);
    }
  }

  /** The defaulted listen address always names port `socks5_port`. */
  lemma DefaultLocalAddrNamesPort(c: Config)
    requires LocalAddrUnset(c.localAddr)
    ensures var r := ApplyDefaults(c);
            r.localAddr[0] == ':' && Text.Atoi(r.localAddr[1..]) == Some(c.socks5Port)
  {
    var r := ApplyDefaults(c);
    assert r.localAddr[1..] == Text.Itoa(c.socks5Port);
    Text.ItoaRoundTrip(c.socks5Port);
  }

  /**
   * The defaulted remote address splits back into `server` and `server_port`
   * when the server text is a host name or IPv4 address (no colon, no brackets).
   */
  lemma DefaultRemoteAddrSplits(c: Config)
    requires RemoteAddrUnset(c.remoteAddr)
    requires ':' !in c.server && !Text.Bracketed(c.server)
    ensures Text.SplitHostPort(ApplyDefaults(c).remoteAddr) == Some((c.server, Text.Itoa(c.serverPort)))
  {
    var p := Text.Itoa(c.serverPort);
    Text.NoSeparatorInDecimal(if c.serverPort < 0 then -c.serverPort else c.serverPort);
    assert ':' !in p;
    Text.JoinSplitRoundTrip(c.server, p);
  }

  /**
   * Because the concatenation does not bracket, an IPv6 server literal such
   * as "::1" yields a remote address that the reference splitter rejects.
   */
  lemma Ipv6ServerIsNotBracketed(c: Config)
    requires c.remoteAddr == "" && c.server == "::1" && c.serverPort == 443
    ensures Text.SplitHostPort(ApplyDefaults(c).remoteAddr).None?
  {
    assert Text.Itoa(443) == "443" by {
      assert Text.Decimal(4) == "4";
      assert Text.Decimal(44) == "44";
    }
    assert ApplyDefaults(c).remoteAddr == "::1:443";
    Text.UnbracketedIpv6Rejected();
  }
}

=== FILE: octets.dfy ===
/** Octets, optional values and results shared by every part of the SOCKS5 model. */
module Octets {

  /** One octet of a wire message or of a Go byte slice. */
  type byte = b: int | 0 <= b < 256

  /** A value that may be absent. */
  datatype Option<+T> = None | Some(value: T)

  /** The value of an operation, or the error it returned. */
  datatype Result<+T, +E> = Ok(value: T) | Err(error: E)

  function Min(a: int, b: int): int {
    if a <= b then a else b
  }

  function Max(a: int, b: int): int {
    if a <= b then b else a
  }

  /** The value of a two-byte field as binary.BigEndian.Uint16 reads it. */
  function BigEndian16(b: seq<byte>): (v: nat)
    requires |b| == 2
    ensures v < 0x1_0000
  {
    b[0] as int * 256 + b[1] as int
  }

  /** The network-order encoding of a 16-bit port: the inverse of BigEndian16. */
  function PutBigEndian16(v: nat): (b: seq<byte>)
    requires v < 0x1_0000
    ensures |b| == 2 && BigEndian16(b) == v
  {
    [v / 256, v % 256]
  }

  /** Reading a two-byte field and writing its value back gives the same two bytes. */
  lemma PutBigEndian16Inverse(b: seq<byte>)
    requires |b| == 2
    ensures PutBigEndian16(BigEndian16(b)) == b
  {
  }

  /** Go's string(bytes) conversion: each byte becomes the character with that code. */
  function Latin1(bs: seq<byte>): string
  {
    seq(|bs|, i requires 0 <= i < |bs| => bs[i] as char)
  }

  /** Latin1 keeps every byte, in order, as the character with that code, and so loses nothing. */
  lemma Latin1Injective(a: seq<byte>, b: seq<byte>)
    ensures |Latin1(a)| == |a|
    ensures forall i :: 0 <= i < |a| ==> Latin1(a)[i] as int == a[i]
    ensures Latin1(a) == Latin1(b) ==> a == b
  {
    if Latin1(a) == Latin1(b) {
      assert forall i :: 0 <= i < |a| ==> a[i] == Latin1(a)[i] as int == Latin1(b)[i] as int == b[i];
    }
  }
}

=== FILE: server.dfy ===
/**
 * The standalone SOCKS5 server's fast path (socks5/main.go): a connection
 * whose first two bytes are not `05 01` is taken to carry a pre-framed
 * request that starts directly at ATYP ("shadowsocks style"). Bytes the first
 * read picked up after the request are returned as `extra` and forwarded to
 * the destination before relaying; the client is never answered.
 */
module Server {
  import opened Octets
  import opened Stream
  import Address

  const SocksVer5: byte := 5
  const SocksCmdConnect: byte := 1

  /** getRequest's buffer: ATYP, the length byte, up to 256 domain bytes, the port. */
  const BufLen: nat := 260
  /** The first read needs ATYP and the domain length byte (idDmLen + 1). */
  const MinRead: nat := 2

  datatype Error =
    | AddrTypeNotSupported   // errors.New("addr type not supported")
    | ReadFailed(cause: IoError)
    | DialFailed
    | WriteFailed
    | SlicePanic             // the runtime panic of an inverted slice expression

  /** The request span buf[:reqLen], the surplus of the first read, and what is left on the connection. */
  datatype Framing = Framing(frame: seq<byte>, extra: seq<byte>, rest: seq<byte>)

  /** What getRequest returns (the destination and `extra`), with the frame it parsed and the input left. */
  datatype Request = Request(frame: seq<byte>, host: string, extra: seq<byte>, rest: seq<byte>)

  /**
   * The framing of getRequest once the first read `first` has delivered at
   * least ATYP and the length byte: complete the frame buf[:reqLen] with
   * ReadFull, or keep the surplus buf[reqLen:n] as `extra`.
   */
  function CompleteFrame(first: Chunk, reqLen: nat): (r: Result<Framing, Error>)
    ensures var s, n := first.data + first.rest, |first.data|;
            && (r.Ok? <==> reqLen <= |s|)
            && (|s| < reqLen ==> r == Err(ReadFailed(EndError(|s| - n))))
            && (r.Ok? ==> && r.value.frame == s[..reqLen]
                          && r.value.extra == (if reqLen < n then s[reqLen..n] else [])
                          && r.value.rest == s[Max(n, reqLen)..])
  {
    var buf, n := first.data, |first.data|;
    if n < reqLen then
      match ReadFull(first.rest, reqLen - n)
      case Err(e) => Err(ReadFailed(e))
      case Ok(more) =>
        Cut(buf, more.data, more.rest);
        Ok(Framing(buf + more.data, [], more.rest))
    else if n > reqLen then
      Cut(buf[..reqLen], buf[reqLen..], first.rest);
      assert buf[..reqLen] + buf[reqLen..] == buf;
      Ok(Framing(buf[..reqLen], buf[reqLen..n], first.rest))
    else
      assert (buf + first.rest)[..n] == buf;
      Ok(Framing(buf, [], first.rest))
  }

  /**
   * The framing half of getRequest: read at least two bytes into the
   * 260-byte buffer, look up reqLen from ATYP, then complete the frame.
   */
  function ReadRequest(s: seq<byte>, arrived: nat): (r: Result<Framing, Error>)
    ensures |s| < MinRead ==> r == Err(ReadFailed(EndError(|s|)))
    ensures MinRead <= |s| && Address.RawLen(s[0], s[1]).None? ==> r == Err(AddrTypeNotSupported)
    ensures MinRead <= |s| && Address.RawLen(s[0], s[1]).Some? ==>
              var reqLen := Address.RawLen(s[0], s[1]).value;
              var n := Delivered(|s|, BufLen, MinRead, arrived);
              && (r.Ok? <==> reqLen <= |s|)
              && (|s| < reqLen ==> r == Err(ReadFailed(EndError(|s| - n))))
              && (r.Ok? ==> && r.value.frame == s[..reqLen]
                            && r.value.extra == (if reqLen < n then s[reqLen..n] else [])
                            && r.value.rest == s[Max(n, reqLen)..])
  {
    match ReadAtLeast(s, BufLen, MinRead, arrived)
    case Err(e) => Err(ReadFailed(e))
    case Ok(first) =>
      match Address.RawLen(first.data[0], first.data[1])
      case None => Err(AddrTypeNotSupported)
      case Some(reqLen) => CompleteFrame(first, reqLen)
  }

  /** Where a + b + c is cut at |a| and at |a| + |b|. */
  lemma Cut(a: seq<byte>, b: seq<byte>, c: seq<byte>)
    ensures (a + (b + c))[..|a| + |b|] == a + b
    ensures (a + (b + c))[|a|..|a| + |b|] == b
    ensures (a + (b + c))[|a| + |b|..] == c
    ensures a + b + c == a + (b + c)
  {
  }

  /** The frame, extra and rest that ReadRequest cuts from `s` reassemble to `s`, and the frame is exactly as long as announced. */
  lemma ReadRequestParts(s: seq<byte>, arrived: nat)
    requires ReadRequest(s, arrived).Ok?
    ensures var f := ReadRequest(s, arrived).value;
            && s == f.frame + (f.extra + f.rest) && Address.Framed(f.frame)
            && |f.extra| <= BufLen - |f.frame|
  {
    var f := ReadRequest(s, arrived).value;
    var n := Delivered(|s|, BufLen, MinRead, arrived);
    assert f.frame[0] == s[0] && f.frame[1] == s[1];
    Reassemble(s, |f.frame|, n, f.extra, f.rest);
  }

  lemma Reassemble(s: seq<byte>, k: nat, n: nat, extra: seq<byte>, rest: seq<byte>)
    requires k <= |s| && n <= |s|
    requires extra == (if k < n then s[k..n] else []) && rest == s[Max(n, k)..]
    ensures s == s[..k] + (extra + rest)
  {
    if k < n {
      Cut(s[..k], s[k..n], s[n..]);
      assert s == s[..k] + s[k..n] + s[n..];
    } else {
      assert s == s[..k] + s[k..];
    }
  }

  /**
   * getRequest as corrected: the domain end index is computed without
   * wrap-around, so every domain length is read.
   */
  function GetRequest(s: seq<byte>, arrived: nat, ip6Text: seq<byte> -> string): (r: Result<Request, Error>)
    ensures |s| < MinRead ==> r == Err(ReadFailed(EndError(|s|)))
    ensures MinRead <= |s| && Address.RawLen(s[0], s[1]).None? ==> r == Err(AddrTypeNotSupported)
    ensures MinRead <= |s| && Address.RawLen(s[0], s[1]).Some? ==>
              var reqLen := Address.RawLen(s[0], s[1]).value;
              var n := Delivered(|s|, BufLen, MinRead, arrived);
              && (r.Ok? <==> reqLen <= |s|)
              && (|s| < reqLen ==> r == Err(ReadFailed(EndError(|s| - n))))
              && (r.Ok? ==> && r.value.frame == s[..reqLen]
                            && r.value.extra == (if reqLen < n then s[reqLen..n] else [])
                            && r.value.rest == s[Max(n, reqLen)..])
    ensures r.Ok? ==>
              && s == r.value.frame + (r.value.extra + r.value.rest)
              && |r.value.extra| <= BufLen - |r.value.frame|
              && Address.Decode(r.value.frame).Some?
              && r.value.host == Address.HostPort(Address.Decode(r.value.frame).value, ip6Text)
  {
    match ReadRequest(s, arrived)
    case Err(e) => Err(e)
    case Ok(f) =>
      ReadRequestParts(s, arrived);
      Ok(Request(f.frame, Address.HostAt(f.frame, 0, ip6Text), f.extra, f.rest))
  }

  /**
   * getRequest as written: `idDm0 + buf[idDmLen]` is byte arithmetic, so a
   * domain of 254 or 255 bytes makes the host slice inverted and the parser
   * panics. In every other case it agrees with GetRequest.
   */
  function GetRequestAsWritten(s: seq<byte>, arrived: nat, ip6Text: seq<byte> -> string): (r: Result<Request, Error>)
    ensures r == Err(SlicePanic) <==> ReadRequest(s, arrived).Ok? && s[0] == Address.TypeDomain && 254 <= s[1]
    ensures r != Err(SlicePanic) ==> r == GetRequest(s, arrived, ip6Text)
  {
    match ReadRequest(s, arrived)
    case Err(e) => Err(e)
    case Ok(f) =>
      ReadRequestParts(s, arrived);
      assert f.frame[0] == s[0] && f.frame[1] == s[1];
      match Address.HostAtAsWritten(f.frame, 0, ip6Text)
      case None => Err(SlicePanic)
      case Some(host) => Ok(Request(f.frame, host, f.extra, f.rest))
  }

  /**
   * A pre-framed request followed by payload yields its destination; the
   * payload is split between `extra` (what the first read took) and the
   * input left on the connection, in order and without loss.
   */
  lemma GetRequestRoundTrip(a: Address.Addr, payload: seq<byte>, arrived: nat, ip6Text: seq<byte> -> string)
    requires Address.Valid(a)
    ensures var r := GetRequest(Address.Encode(a) + payload, arrived, ip6Text);
            && r.Ok?
            && r.value.frame == Address.Encode(a)
            && r.value.host == Address.HostPort(a, ip6Text)
            && r.value.extra + r.value.rest == payload
            && (arrived <= |Address.Encode(a)| ==> r.value.extra == [])
  {
    var raw := Address.Encode(a);
    var s := raw + payload;
    PrefixFacts(raw, payload);
    Address.DecodeEncode(a);
    var req := GetRequest(s, arrived, ip6Text).value;
    assert req.frame == raw;
    DropPrefix(raw, payload, req.extra + req.rest);
  }

  lemma SuffixOfParts(s: seq<byte>, f: seq<byte>, e: seq<byte>, t: seq<byte>)
    requires s == f + (e + t)
    ensures |e| + |t| <= |s| && s[|s| - |e| - |t|..] == e + t
  {
  }

  lemma PrefixFacts(raw: seq<byte>, payload: seq<byte>)
    requires 2 <= |raw|
    ensures (raw + payload)[..|raw|] == raw
    ensures (raw + payload)[0] == raw[0] && (raw + payload)[1] == raw[1]
  {
  }

  lemma DropPrefix(p: seq<byte>, q: seq<byte>, t: seq<byte>)
    requires p + q == p + t
    ensures q == t
  {
    assert q == (p + q)[|p|..];
    assert t == (p + t)[|p|..];
  }

  /** A domain of 254 or 255 bytes sends the source's parser into a slice panic. */
  lemma LongDomainPanics(name: seq<byte>, port: nat, payload: seq<byte>, arrived: nat, ip6Text: seq<byte> -> string)
    requires 254 <= |name| < 256 && port < 0x1_0000
    ensures GetRequestAsWritten(Address.Encode(Address.Domain(name, port)) + payload, arrived, ip6Text)
            == Err(SlicePanic)
  {
    var a := Address.Domain(name, port);
    GetRequestRoundTrip(a, payload, arrived, ip6Text);
    var s := Address.Encode(a) + payload;
    assert s[0] == Address.TypeDomain && s[1] == |name|;
  }

  /** `01 7F 00 00 01 1F 90` followed in the same read by `AA BB CC` names 127.0.0.1:8080 and returns `AA BB CC` as extra. */
  lemma RequestExample(ip6Text: seq<byte> -> string)
    ensures GetRequest([1, 0x7F, 0, 0, 1, 0x1F, 0x90, 0xAA, 0xBB, 0xCC], 10, ip6Text)
            == Ok(Request([1, 0x7F, 0, 0, 1, 0x1F, 0x90], "127.0.0.1:8080", [0xAA, 0xBB, 0xCC], []))
  {
    var a := Address.IPv4([0x7F, 0, 0, 1], 8080);
    Address.LoopbackExample(ip6Text);
    var s: seq<byte> := [1, 0x7F, 0, 0, 1, 0x1F, 0x90, 0xAA, 0xBB, 0xCC];
    assert s == Address.Encode(a) + [0xAA, 0xBB, 0xCC];
    GetRequestRoundTrip(a, [0xAA, 0xBB, 0xCC], 10, ip6Text);
    assert Address.RawLen(s[0], s[1]) == Some(7);
    assert Delivered(|s|, BufLen, MinRead, 10) == 10;
    assert s[7..10] == [0xAA, 0xBB, 0xCC] && s[10..] == [];
  }

  // ---- socks5ServerSel ----

  /** Where socks5ServerSel sends a connection. */
  datatype Route = Library | PreFramed

  /** The choice made from the two peeked bytes: only `05 01` goes to the library server. */
  function Classify(peeked: seq<byte>): (route: Route)
    requires |peeked| == 2
    ensures route == Library <==> peeked == [SocksVer5, SocksCmdConnect]
  {
    if peeked[0] == SocksVer5 && peeked[1] == SocksCmdConnect then Library else PreFramed
  }

  /** Every request the pre-framed parser accepts starts with ATYP 1, 3 or 4, so it is routed to that parser. */
  lemma AcceptedRequestsArePreFramed(s: seq<byte>, arrived: nat, ip6Text: seq<byte> -> string)
    requires GetRequest(s, arrived, ip6Text).Ok?
    ensures MinRead <= |s| && Classify(s[..MinRead]) == PreFramed
  {
    var f := GetRequest(s, arrived, ip6Text).value.frame;
    assert f[0] == s[0];
  }

  // ---- handleSocks5 ----

  /**
   * What handleSocks5 did: the host it dialed, what it wrote to the remote
   * and to the client before relaying, and either the client input the relay
   * carries on with or the error.
   */
  datatype Session = Session(dialed: Option<string>, toRemote: seq<byte>, toClient: seq<byte>,
                             result: Result<seq<byte>, Error>)

  /**
   * handleSocks5: parse the request, dial the destination (`dialOk` says
   * whether that succeeds), write a non-empty `extra` to it (`writeFails`
   * says whether that write fails), then relay. The parser is the one as
   * written, so a long domain panics before anything is dialed.
   */
  function HandleSocks5(s: seq<byte>, arrived: nat, dialOk: bool, writeFails: bool,
                        ip6Text: seq<byte> -> string): (r: Session)
    ensures r.toClient == []
    ensures GetRequestAsWritten(s, arrived, ip6Text).Err? ==>
              r == Session(None, [], [], Err(GetRequestAsWritten(s, arrived, ip6Text).error))
    ensures r.result == Err(SlicePanic) <==> ReadRequest(s, arrived).Ok? && s[0] == Address.TypeDomain && 254 <= s[1]
    ensures GetRequestAsWritten(s, arrived, ip6Text).Ok? ==>
              var req := GetRequest(s, arrived, ip6Text).value;
              && r.dialed == Some(req.host)
              && (r.result.Ok? <==> dialOk && (req.extra == [] || !writeFails))
              && (r.result.Ok? ==> r.toRemote == req.extra && r.result.value == req.rest)
              && (r.result.Err? ==> r.toRemote == [])
              && (!dialOk ==> r.result == Err(DialFailed))
              && (dialOk && req.extra != [] && writeFails ==> r.result == Err(WriteFailed))
    ensures r.result.Ok? ==> |r.toRemote| + |r.result.value| <= |s|
                             && r.toRemote + r.result.value == s[|s| - |r.toRemote| - |r.result.value|..]
  {
    match GetRequestAsWritten(s, arrived, ip6Text)
    case Err(e) => Session(None, [], [], Err(e))
    case Ok(req) =>
      if !dialOk then Session(Some(req.host), [], [], Err(DialFailed))
      else if |req.extra| > 0 && writeFails then Session(Some(req.host), [], [], Err(WriteFailed))
      else
        SuffixOfParts(s, req.frame, req.extra, req.rest);
        Session(Some(req.host), req.extra, [], Ok(req.rest))
  }

  /** What socks5ServerSel did with a connection. */
  datatype Served =
    | PeekFailed              // fewer than two bytes ever arrived
    | ServedByLibrary(input: seq<byte>)
    | Handled(session: Session)

  /**
   * socks5ServerSel: peek two bytes (consuming nothing) and hand the whole
   * connection to the library server or to handleSocks5.
   */
  function ServerSel(s: seq<byte>, arrived: nat, dialOk: bool, writeFails: bool,
                     ip6Text: seq<byte> -> string): (r: Served)
    ensures |s| < 2 <==> r == PeekFailed
    ensures r.ServedByLibrary? <==> 2 <= |s| && s[..2] == [SocksVer5, SocksCmdConnect]
    ensures r.ServedByLibrary? ==> r.input == s
    ensures r.Handled? ==> r.session == HandleSocks5(s, arrived, dialOk, writeFails, ip6Text)
  {
    if |s| < 2 then PeekFailed
    else match Classify(s[..2])
      case Library => ServedByLibrary(s)
      case PreFramed => Handled(HandleSocks5(s, arrived, dialOk, writeFails, ip6Text))
  }

  /** A destination the server parser reads as written: any IP address, or a domain shorter than 254 bytes. */
  predicate ParsedAsWritten(a: Address.Addr)
  {
    a.Domain? ==> |a.name| < 254
  }

  /**
   * A pre-framed request for `a` followed by payload is handled, not passed
   * to the library: `a` is dialed, the client hears nothing, and the remote
   * receives the whole payload, `extra` first.
   */
  lemma PreFramedSessionRoundTrip(a: Address.Addr, payload: seq<byte>, arrived: nat,
                                  ip6Text: seq<byte> -> string)
    requires Address.Valid(a) && ParsedAsWritten(a)
    ensures var r := ServerSel(Address.Encode(a) + payload, arrived, true, false, ip6Text);
            && r.Handled?
            && r.session.dialed == Some(Address.HostPort(a, ip6Text))
            && r.session.toClient == []
            && r.session.result.Ok?
            && r.session.toRemote + r.session.result.value == payload
  {
    var s := Address.Encode(a) + payload;
    assert s[0] == Address.Encode(a)[0];
    HandledWhenNotVersion5(s, arrived, true, false, ip6Text);
    HandleRoundTrip(a, payload, arrived, ip6Text);
  }

  /** A connection whose first byte is not 5 is handled by handleSocks5. */
  lemma HandledWhenNotVersion5(s: seq<byte>, arrived: nat, dialOk: bool, writeFails: bool,
                               ip6Text: seq<byte> -> string)
    requires 2 <= |s| && s[0] != SocksVer5
    ensures ServerSel(s, arrived, dialOk, writeFails, ip6Text)
            == Handled(HandleSocks5(s, arrived, dialOk, writeFails, ip6Text))
  {
    assert s[..2][0] == s[0];
  }

  /** handleSocks5 on such a request dials its destination and passes the whole payload on, extra first. */
  lemma HandleRoundTrip(a: Address.Addr, payload: seq<byte>, arrived: nat, ip6Text: seq<byte> -> string)
    requires Address.Valid(a) && ParsedAsWritten(a)
    ensures var r := HandleSocks5(Address.Encode(a) + payload, arrived, true, false, ip6Text);
            && r.dialed == Some(Address.HostPort(a, ip6Text))
            && r.result.Ok?
            && r.toRemote + r.result.value == payload
  {
    AsWrittenRoundTrip(a, payload, arrived, ip6Text);
    GetRequestRoundTrip(a, payload, arrived, ip6Text);
  }

  /** On such a destination the parser as written gives what the corrected one gives. */
  lemma AsWrittenRoundTrip(a: Address.Addr, payload: seq<byte>, arrived: nat, ip6Text: seq<byte> -> string)
    requires Address.Valid(a) && ParsedAsWritten(a)
    ensures GetRequestAsWritten(Address.Encode(a) + payload, arrived, ip6Text)
            == GetRequest(Address.Encode(a) + payload, arrived, ip6Text)
    ensures GetRequest(Address.Encode(a) + payload, arrived, ip6Text).Ok?
  {
    var s := Address.Encode(a) + payload;
    GetRequestRoundTrip(a, payload, arrived, ip6Text);
    assert s[0] == Address.Encode(a)[0] && s[1] == Address.Encode(a)[1];
    assert a.Domain? ==> Address.Encode(a)[1] == |a.name|;
  }

  /**
   * A pre-framed request for a domain of 254 or 255 bytes is handled and
   * panics in the parser: nothing is dialed and nothing is written.
   */
  lemma LongDomainSessionPanics(name: seq<byte>, port: nat, payload: seq<byte>, arrived: nat,
                                dialOk: bool, writeFails: bool, ip6Text: seq<byte> -> string)
    requires 254 <= |name| < 256 && port < 0x1_0000
    ensures ServerSel(Address.Encode(Address.Domain(name, port)) + payload, arrived, dialOk, writeFails, ip6Text)
            == Handled(Session(None, [], [], Err(SlicePanic)))
  {
    var s := Address.Encode(Address.Domain(name, port)) + payload;
    LongDomainPanics(name, port, payload, arrived, ip6Text);
    assert s[0] == Address.TypeDomain;
  }

  /**
   * A SOCKS5 greeting other than `05 01 ..` (say `05 02 00 02`) is routed to
   * the pre-framed parser, which rejects ATYP 5: nothing is dialed or written.
   */
  lemma OtherGreetingsRejected(s: seq<byte>, arrived: nat, dialOk: bool, writeFails: bool,
                               ip6Text: seq<byte> -> string)
    requires 2 <= |s| && s[0] == SocksVer5 && s[1] != SocksCmdConnect
    ensures ServerSel(s, arrived, dialOk, writeFails, ip6Text)
            == Handled(Session(None, [], [], Err(AddrTypeNotSupported)))
  {
  }
}

=== FILE: stream.dfy ===
/**
 * Reads from a connection. A connection's input is the byte stream the peer
 * sends; a read hands the caller a prefix of it and leaves the rest. How much
 * `io.ReadAtLeast` returns depends on how much had arrived when it was called,
 * so that amount is an input of the model (`arrived`): the read takes what has
 * arrived, at most the buffer size, and blocks for more while it has fewer
 * than `min` bytes.
 */
module Stream {
  import opened Octets

  /**
   * io.EOF (nothing at all was read) and io.ErrUnexpectedEOF (the stream
   * ended part-way). Any other read error, such as a reset connection, is
   * modelled as the stream ending where the error occurs.
   */
  datatype IoError = Eof | UnexpectedEof

  /** What a read delivered into the buffer, and what is left of the stream after it. */
  datatype Chunk = Chunk(data: seq<byte>, rest: seq<byte>)

  /** The number of bytes io.ReadAtLeast returns when `avail` >= `min` bytes are still to come. */
  function Delivered(avail: nat, size: nat, min: nat, arrived: nat): nat
  {
    Max(min, Min(arrived, Min(size, avail)))
  }

  /** The error a read reports when the stream ends after `got` of the bytes it needed. */
  function EndError(got: nat): IoError
  {
    if got == 0 then Eof else UnexpectedEof
  }

  /** io.ReadAtLeast(conn, buf[:size], min). */
  function ReadAtLeast(s: seq<byte>, size: nat, min: nat, arrived: nat): (r: Result<Chunk, IoError>)
    requires 0 < min <= size
    ensures r.Ok? <==> min <= |s|
    ensures r.Err? ==> r.error == EndError(|s|)
    ensures r.Ok? ==> r.value.data + r.value.rest == s
    ensures r.Ok? ==> min <= |r.value.data| <= Min(size, |s|)
    ensures r.Ok? && min <= arrived <= Min(size, |s|) ==> |r.value.data| == arrived
    ensures r.Ok? && Min(size, |s|) <= arrived ==> |r.value.data| == Min(size, |s|)
  {
    if |s| < min then Err(EndError(|s|))
    else
      var n := Delivered(|s|, size, min, arrived);
      Ok(Chunk(s[..n], s[n..]))
  }

  /** io.ReadFull(conn, buf[:k]). */
  function ReadFull(s: seq<byte>, k: nat): (r: Result<Chunk, IoError>)
    ensures r.Ok? <==> k <= |s|
    ensures r.Err? ==> r.error == EndError(|s|)
    ensures r.Ok? ==> |r.value.data| == k && r.value.data + r.value.rest == s
  {
    if |s| < k then Err(EndError(|s|)) else Ok(Chunk(s[..k], s[k..]))
  }
}

=== FILE: text.dfy ===
/**
 * The string helpers of Go's standard library that the SOCKS5 code leans on:
 * strconv.Itoa, the dotted-decimal text of a four-byte net.IP, and
 * net.JoinHostPort. Each comes with the parser that undoes it, so that the
 * model can state what a produced `host:port` string denotes.
 */
module Text {
  import opened Octets

  predicate IsDigit(c: char) {
    '0' <= c <= '9'
  }

  predicate AllDigits(s: string) {
    forall i :: 0 <= i < |s| ==> IsDigit(s[i])
  }

  function DigitChar(d: nat): (c: char)
    requires d < 10
    ensures IsDigit(c)
  {
    ('0' as int + d) as char
  }

  function DigitValue(c: char): (d: nat)
    requires IsDigit(c)
    ensures d < 10
  {
    c as int - '0' as int
  }

  /** strconv.Itoa of a non-negative value: its decimal digits, with no leading zero. */
  function Decimal(n: nat): (s: string)
    ensures 0 < |s| && AllDigits(s)
    ensures s[0] == '0' <==> n == 0
    ensures n == 0 ==> |s| == 1
    decreases n
  {
    if n < 10 then [DigitChar(n)] else Decimal(n / 10) + [DigitChar(n % 10)]
  }

  /** strconv.Itoa: a minus sign for negative values, then the decimal digits. */
  function Itoa(i: int): (s: string)
    ensures 0 < |s| && (s[0] == '-' <==> i < 0)
  {
    if i < 0 then "-" + Decimal(-i) else Decimal(i)
  }

  /** The value of a non-empty run of decimal digits; None for anything else. */
  function ParseDecimal(s: string): (r: Option<nat>)
    ensures r.Some? <==> 0 < |s| && AllDigits(s)
    decreases |s|
  {
    if |s| == 0 || !IsDigit(s[|s| - 1]) then None
    else if |s| == 1 then Some(DigitValue(s[0]))
    else match ParseDecimal(s[..|s| - 1])
      case None => None
      case Some(v) => Some(10 * v + DigitValue(s[|s| - 1]))
  }

  /** Parses what Itoa produces: an optional minus sign and a decimal number. */
  function Atoi(s: string): Option<int>
  {
    if 0 < |s| && s[0] == '-' then
      match ParseDecimal(s[1..])
      case None => None
      case Some(v) => Some(-(v as int))
    else
      match ParseDecimal(s)
      case None => None
      case Some(v) => Some(v)
  }

  /** Decimal digits as strconv.Itoa writes them: no leading zero unless the number is zero. */
  predicate Canonical(s: string) {
    0 < |s| && AllDigits(s) && (s[0] == '0' ==> |s| == 1)
  }

  /** The value of a canonical decimal; None for anything else, a leading zero included. */
  function ParseCanonical(s: string): (r: Option<nat>)
    ensures r.Some? <==> Canonical(s)
  {
    if 1 < |s| && s[0] == '0' then None else ParseDecimal(s)
  }

  lemma {:induction false} DecimalRoundTrip(n: nat)
    ensures ParseDecimal(Decimal(n)) == Some(n)
    decreases n
  {
    if n >= 10 {
      var s := Decimal(n);
      assert s[..|s| - 1] == Decimal(n / 10);
      DecimalRoundTrip(n / 10);
    }
  }

  /** A canonical decimal is the one text Decimal prints for its value. */
  lemma {:induction false} ParseCanonicalUnique(s: string)
    requires ParseCanonical(s).Some?
    ensures s == Decimal(ParseCanonical(s).value)
    decreases |s|
  {
    var v := ParseCanonical(s).value;
    if |s| == 1 {
      assert v == DigitValue(s[0]) && [DigitChar(v)] == s;
    } else {
      var p := s[..|s| - 1];
      var w := ParseDecimal(p).value;
      assert p[0] == s[0] && Canonical(p);
      ParseCanonicalUnique(p);
      assert p == Decimal(w) && w != 0;
      assert v == 10 * w + DigitValue(s[|s| - 1]);
      assert s == p + [DigitChar(v % 10)];
    }
  }

  /** Every integer Itoa prints is read back by Atoi. */
  lemma ItoaRoundTrip(i: int)
    ensures Atoi(Itoa(i)) == Some(i)
  {
    var s := Itoa(i);
    if i < 0 {
      assert s[0] == '-' && s[1..] == Decimal(-i);
      DecimalRoundTrip(-i);
    } else {
      assert IsDigit(s[0]);
      DecimalRoundTrip(i);
    }
  }

  // ---- Searching for a separator character ----

  /** The first position of `c` in `s`, if any. */
  function IndexOf(s: string, c: char): (r: Option<nat>)
    ensures r.Some? ==> r.value < |s| && s[r.value] == c && c !in s[..r.value]
    ensures r.None? <==> c !in s
    decreases |s|
  {
    if |s| == 0 then None
    else if s[0] == c then Some(0)
    else match IndexOf(s[1..], c)
      case None => None
      case Some(k) =>
        assert s[..k + 1] == [s[0]] + s[1..][..k];
        Some(k + 1)
  }

  /** The last position of `c` in `s`, if any. */
  function LastIndexOf(s: string, c: char): (r: Option<nat>)
    ensures r.Some? ==> r.value < |s| && s[r.value] == c && c !in s[r.value + 1..]
    ensures r.None? <==> c !in s
    decreases |s|
  {
    if |s| == 0 then None
    else if s[|s| - 1] == c then Some(|s| - 1)
    else match LastIndexOf(s[..|s| - 1], c)
      case None =>
        assert s == s[..|s| - 1] + [s[|s| - 1]];
        None
      case Some(k) =>
        assert s[k + 1..] == s[..|s| - 1][k + 1..] + [s[|s| - 1]];
        Some(k)
  }

  lemma {:induction false} IndexOfAfter(a: string, c: char, b: string)
    requires c !in a
    ensures IndexOf(a + [c] + b, c) == Some(|a|)
    decreases |a|
  {
    if 0 < |a| {
      var s := a + [c] + b;
      assert s[0] == a[0];
      assert s[1..] == a[1..] + [c] + b;
      IndexOfAfter(a[1..], c, b);
    }
  }

  lemma {:induction false} LastIndexOfBefore(a: string, c: char, b: string)
    requires c !in b
    ensures LastIndexOf(a + [c] + b, c) == Some(|a|)
    decreases |b|
  {
    var s := a + [c] + b;
    if 0 < |b| {
      assert s[|s| - 1] == b[|b| - 1];
      assert s[..|s| - 1] == a + [c] + b[..|b| - 1];
      LastIndexOfBefore(a, c, b[..|b| - 1]);
    } else {
      assert s[|s| - 1] == c;
    }
  }

  /** Joining what Split cut gives back the text. */
  lemma {:induction false} JoinSplit(s: string, sep: char)
    ensures Join(Split(s, sep), sep) == s
    decreases |s|
  {
    match IndexOf(s, sep)
    case None =>
    case Some(i) =>
      var parts := Split(s, sep);
      assert parts == [s[..i]] + Split(s[i + 1..], sep);
      JoinSplit(s[i + 1..], sep);
      assert parts[1..] == Split(s[i + 1..], sep);
      assert s == s[..i] + [sep] + s[i + 1..];
  }

  /** The fields of `s` between occurrences of `sep` (like strings.Split). */
  function Split(s: string, sep: char): (parts: seq<string>)
    ensures 0 < |parts|
    decreases |s|
  {
    match IndexOf(s, sep)
    case None => [s]
    case Some(i) => [s[..i]] + Split(s[i + 1..], sep)
  }

  lemma SplitCons(a: string, sep: char, b: string)
    requires sep !in a
    ensures Split(a + [sep] + b, sep) == [a] + Split(b, sep)
  {
    var s := a + [sep] + b;
    IndexOfAfter(a, sep, b);
    assert s[..|a|] == a;
    assert s[|a| + 1..] == b;
  }

  lemma SplitNone(s: string, sep: char)
    requires sep !in s
    ensures Split(s, sep) == [s]
  {
  }

  // ---- Dotted-decimal IPv4 text ----

  /** The fields with `sep` between them (strings.Join). */
  function Join(parts: seq<string>, sep: char): string
    requires 0 < |parts|
    decreases |parts|
  {
    if |parts| == 1 then parts[0] else parts[0] + [sep] + Join(parts[1..], sep)
  }

  /** Split undoes Join when no field contains the separator. */
  lemma {:induction false} SplitJoin(parts: seq<string>, sep: char)
    requires 0 < |parts|
    requires forall i :: 0 <= i < |parts| ==> sep !in parts[i]
    ensures Split(Join(parts, sep), sep) == parts
    decreases |parts|
  {
    if |parts| == 1 {
      SplitNone(parts[0], sep);
    } else {
      SplitCons(parts[0], sep, Join(parts[1..], sep));
      SplitJoin(parts[1..], sep);
      assert parts == [parts[0]] + parts[1..];
    }
  }

  /** A character that is neither the separator nor in any field is not in the joined text. */
  lemma {:induction false} JoinAvoids(parts: seq<string>, sep: char, c: char)
    requires 0 < |parts| && c != sep
    requires forall i :: 0 <= i < |parts| ==> c !in parts[i]
    ensures c !in Join(parts, sep)
    decreases |parts|
  {
    if 1 < |parts| {
      JoinAvoids(parts[1..], sep, c);
      assert c !in parts[0];
    }
  }

  /** The four decimal fields of an IPv4 address. */
  function OctetFields(ip: seq<byte>): (f: seq<string>)
    requires |ip| == 4
    ensures |f| == 4 && forall i :: 0 <= i < 4 ==> f[i] == Decimal(ip[i])
  {
    [Decimal(ip[0]), Decimal(ip[1]), Decimal(ip[2]), Decimal(ip[3])]
  }

  /** net.IP.String of a four-byte address: "a.b.c.d" in decimal. */
  function DottedQuad(ip: seq<byte>): (q: string)
    requires |ip| == 4
    ensures ':' !in q
  {
    var f := OctetFields(ip);
    forall i | 0 <= i < |f|
      ensures ':' !in f[i]
    {
      NoSeparatorInDecimal(ip[i]);
    }
    JoinAvoids(f, '.', ':');
    Join(f, '.')
  }

  /** Join of four fields written out. */
  lemma JoinFour(a: string, b: string, c: string, d: string, sep: char)
    ensures Join([a, b, c, d], sep) == a + [sep] + (b + [sep] + (c + [sep] + d))
  {
    assert [a, b, c, d][1..] == [b, c, d];
    assert [b, c, d][1..] == [c, d];
    assert [c, d][1..] == [d];
    assert Join([c, d], sep) == c + [sep] + d;
    assert Join([b, c, d], sep) == b + [sep] + (c + [sep] + d);
  }

  /** One field of a dotted quad: a canonical decimal below 256. */
  function ParseOctet(s: string): (r: Option<byte>)
    ensures r.Some? ==> Canonical(s)
  {
    match ParseCanonical(s)
    case Some(v) => if v < 256 then Some(v) else None
    case None => None
  }

  /** Each field read as an octet; None if any field is not a decimal number below 256. */
  function ParseOctets(fields: seq<string>): (r: Option<seq<byte>>)
    ensures r.Some? ==> |r.value| == |fields|
    decreases |fields|
  {
    if |fields| == 0 then Some([])
    else match (ParseOctet(fields[0]), ParseOctets(fields[1..]))
      case (Some(b), Some(bs)) => Some([b] + bs)
      case _ => None
  }

  /** Reads "a.b.c.d" back into four bytes; None unless there are exactly four decimal fields below 256. */
  function ParseDottedQuad(s: string): (r: Option<seq<byte>>)
    ensures r.Some? ==> |r.value| == 4
  {
    var f := Split(s, '.');
    if |f| != 4 then None else ParseOctets(f)
  }

  /** Fields that each read back as the matching byte read back as those bytes. */
  lemma {:induction false} ParseOctetsFields(fields: seq<string>, bs: seq<byte>)
    requires |fields| == |bs|
    requires forall i :: 0 <= i < |fields| ==> ParseOctet(fields[i]) == Some(bs[i])
    ensures ParseOctets(fields) == Some(bs)
    decreases |fields|
  {
    if 0 < |fields| {
      ParseOctetsFields(fields[1..], bs[1..]);
      assert bs == [bs[0]] + bs[1..];
    }
  }

  /** Fields that read back as bytes each read back as the matching byte. */
  lemma {:induction false} ParseOctetsEach(fields: seq<string>)
    requires ParseOctets(fields).Some?
    ensures forall i :: 0 <= i < |fields| ==> ParseOctet(fields[i]) == Some(ParseOctets(fields).value[i])
    decreases |fields|
  {
    if 0 < |fields| {
      ParseOctetsEach(fields[1..]);
    }
  }

  /** Decimal text contains neither separator: the '.' of a dotted quad nor the ':' of host:port. */
  lemma NoSeparatorInDecimal(n: nat)
    ensures '.' !in Decimal(n) && ':' !in Decimal(n)
  {
    var s := Decimal(n);
    assert forall i :: 0 <= i < |s| ==> s[i] != '.' && s[i] != ':';
  }

  lemma OctetRoundTrip(b: byte)
    ensures ParseOctet(Decimal(b)) == Some(b)
  {
    DecimalRoundTrip(b);
  }

  /** The dotted quad of an address is read back as the same four bytes. */
  lemma DottedQuadRoundTrip(ip: seq<byte>)
    requires |ip| == 4
    ensures ParseDottedQuad(DottedQuad(ip)) == Some(ip)
  {
    var f := OctetFields(ip);
    forall i | 0 <= i < |f|
      ensures '.' !in f[i] && ParseOctet(f[i]) == Some(ip[i])
    {
      NoSeparatorInDecimal(ip[i]);
      OctetRoundTrip(ip[i]);
    }
    SplitJoin(f, '.');
    ParseOctetsFields(f, ip);
  }

  lemma DecimalSamples()
    ensures Decimal(0) == "0" && Decimal(1) == "1"
    ensures Decimal(127) == "127" && Decimal(8080) == "8080"
  {
    assert Decimal(12) == "12";
    assert Decimal(80) == "80";
    assert Decimal(808) == "808";
  }

  /** The loopback address 127.0.0.1 and port 8080 as text. */
  lemma LoopbackText()
    ensures DottedQuad([0x7F, 0, 0, 1]) == "127.0.0.1" && ':' !in DottedQuad([0x7F, 0, 0, 1])
    ensures Itoa(8080) == "8080"
  {
    DecimalSamples();
    assert OctetFields([0x7F, 0, 0, 1]) == ["127", "0", "0", "1"];
    JoinFour("127", "0", "0", "1", '.');
  }

  // ---- host:port ----

  /** net.JoinHostPort: the host is bracketed exactly when it contains a colon. */
  function JoinHostPort(host: string, port: string): string
  {
    if ':' in host then "[" + host + "]:" + port else host + ":" + port
  }

  /**
   * What JoinHostPort writes: the host (in brackets exactly when it
   * contains a colon), a colon, and the port.
   */
  lemma JoinHostPortLayout(host: string, port: string)
    ensures var r, k := JoinHostPort(host, port), |JoinHostPort(host, port)| - |port| - 1;
            && 0 <= k && r[k] == ':' && r[k + 1..] == port
            && (':' in host ==> Bracketed(r[..k]) && r[1..k - 1] == host)
            && (':' !in host ==> r[..k] == host)
  {
  }

  predicate Bracketed(s: string) {
    2 <= |s| && s[0] == '[' && s[|s| - 1] == ']'
  }

  /**
   * A reference host:port splitter: the port follows the last colon, a
   * bracketed host loses its brackets, and an unbracketed host may not
   * contain a colon. It is looser than Go's net.SplitHostPort: it does not
   * reject '[' or ']' inside an unbracketed host, nor insist that a closing
   * ']' stands right before the last colon (it splits "a[b:80", which Go
   * rejects). Lemmas about it are statements about this splitter only.
   */
  function SplitHostPort(s: string): Option<(string, string)>
  {
    match LastIndexOf(s, ':')
    case None => None
    case Some(i) =>
      var h := s[..i];
      if Bracketed(h) then Some((h[1..|h| - 1], s[i + 1..]))
      else if ':' in h then None
      else Some((h, s[i + 1..]))
  }

  /**
   * JoinHostPort is undone by SplitHostPort whenever the port has no colon
   * and a colon-free host is not itself wrapped in brackets.
   */
  lemma JoinSplitRoundTrip(host: string, port: string)
    requires ':' !in port
    requires ':' in host || !Bracketed(host)
    ensures SplitHostPort(JoinHostPort(host, port)) == Some((host, port))
  {
    var h := if ':' in host then "[" + host + "]" else host;
    assert JoinHostPort(host, port) == h + [':'] + port;
    LastIndexOfBefore(h, ':', port);
    var s := h + [':'] + port;
    assert s[..|h|] == h;
    assert s[|h| + 1..] == port;
    if ':' in host {
      assert h[1..|h| - 1] == host;
    }
  }

  /** An IPv6 literal joined to a port without brackets does not split: its host part keeps a colon. */
  lemma UnbracketedIpv6Rejected()
    ensures SplitHostPort("::1:443").None?
  {
    var s := "::1:443";
    assert s == "::1" + [':'] + "443";
    LastIndexOfBefore("::1", ':', "443");
    assert s[..3] == "::1";
  }

  /**
   * `hostPort` names the IPv4 endpoint `ip`:`port`: the text before its last
   * colon is a dotted quad for `ip`, and the text after it is `port` in
   * canonical decimal.
   */
  predicate NamesEndpoint(hostPort: string, ip: seq<byte>, port: nat)
  {
    match LastIndexOf(hostPort, ':')
    case None => false
    case Some(i) => ParseDottedQuad(hostPort[..i]) == Some(ip) && ParseCanonical(hostPort[i + 1..]) == Some(port)
  }

  /** Joining the dotted quad of an address with a decimal port names exactly that endpoint. */
  lemma JoinNamesEndpoint(ip: seq<byte>, port: nat)
    requires |ip| == 4
    ensures NamesEndpoint(JoinHostPort(DottedQuad(ip), Itoa(port)), ip, port)
  {
    var q, p := DottedQuad(ip), Decimal(port);
    NoSeparatorInDecimal(port);
    LastIndexOfBefore(q, ':', p);
    var h := q + [':'] + p;
    assert h[..|q|] == q && h[|q| + 1..] == p;
    DottedQuadRoundTrip(ip);
    DecimalRoundTrip(port);
  }

  /**
   * Only one string names an endpoint: the dotted quad of the address, a
   * colon and the port in decimal, exactly as JoinHostPort and Itoa write them.
   */
  lemma NamesEndpointUnique(hostPort: string, ip: seq<byte>, port: nat)
    requires |ip| == 4 && NamesEndpoint(hostPort, ip, port)
    ensures hostPort == JoinHostPort(DottedQuad(ip), Itoa(port))
  {
    var i := LastIndexOf(hostPort, ':').value;
    var h, p := hostPort[..i], hostPort[i + 1..];
    ParseCanonicalUnique(p);
    DottedQuadUnique(h);
    HostColonPort(hostPort, i);
  }

  lemma HostColonPort(s: string, i: nat)
    requires i < |s| && s[i] == ':'
    ensures s == s[..i] + [':'] + s[i + 1..]
  {
  }

  /** A text that reads back as an address is the dotted quad of that address. */
  lemma DottedQuadUnique(h: string)
    requires ParseDottedQuad(h).Some?
    ensures h == DottedQuad(ParseDottedQuad(h).value)
  {
    var ip := ParseDottedQuad(h).value;
    var f := Split(h, '.');
    ParseOctetsEach(f);
    forall k | 0 <= k < 4
      ensures f[k] == Decimal(ip[k])
    {
      assert ParseCanonical(f[k]) == Some(ip[k] as nat);
      ParseCanonicalUnique(f[k]);
    }
    assert f == OctetFields(ip);
    JoinSplit(h, '.');
  }

  /** A leading zero in a field does not name the endpoint: "127.0.0.01:8080" is not 127.0.0.1:8080. */
  lemma LeadingZeroRejected()
    ensures !NamesEndpoint("127.0.0.01:8080", [0x7F, 0, 0, 1], 8080)
  {
    var h, s := "127.0.0.01", "127.0.0.01:8080";
    assert s == h + [':'] + "8080";
    LastIndexOfBefore(h, ':', "8080");
    assert s[..10] == h;
    LeadingZeroField();
  }

  lemma LeadingZeroField()
    ensures ParseDottedQuad("127.0.0.01").None?
  {
    var f := ["127", "0", "0", "01"];
    JoinFour("127", "0", "0", "01", '.');
    assert "127.0.0.01" == Join(f, '.');
    SplitJoin(f, '.');
    assert ParseOctet(f[3]).None?;
    assert f[1..][1..][1..] == [f[3]];
  }
}

=== FILE: trans.dfy ===
/**
 * The SOCKS5 front end of the kcptun client (client/trans.go): the
 * method-selection handshake (section 3 of RFC 1928), the CONNECT request
 * parser (section 4), the order in which handleSocks5Client answers the
 * client and feeds the mux stream, and the decoding of the kernel's
 * original-destination structure for redirected connections.
 */
module Trans {
  import opened Octets
  import opened Stream
  import Address
  import Text

  const SocksVer5: byte := 5
  const SocksCmdConnect: byte := 1
  const NoAuth: byte := 0

  /** handShake reads into obuf[:258]: version, method count and the methods. */
  const GreetingBufLen: nat := 258
  /** getRequest reads into obuf[:263]. */
  const RequestBufLen: nat := 263
  /** VER, CMD and RSV come before ATYP. */
  const HeaderLen: nat := 3
  /** getRequest first reads through the domain length byte (idDmLen + 1). */
  const RequestMinRead: nat := 5

  datatype Error =
    | ErrVer              // handShake: "socks version not supported"
    | ErrAuthExtraData
    | VersionError        // getRequest: errors.New("version error")
    | ErrCmd
    | ErrAddrType
    | ErrReqExtraData
    | ReadFailed(cause: IoError)
    | WriteFailed
    | SlicePanic          // the runtime panic of an inverted slice expression

  /** The reply to the greeting: version 5, method "no authentication required". */
  const MethodReply: seq<byte> := [SocksVer5, NoAuth]

  /**
   * The fixed reply sent once the request is parsed: version 5, succeeded,
   * reserved, an IPv4 bound address 0.0.0.0 and bound port 0x0843.
   */
  const ConnectReply: seq<byte> := [0x05, 0x00, 0x00, 0x01, 0x00, 0x00, 0x00, 0x00, 0x08, 0x43]

  // ---- handShake ----

  /** What handShake wrote to the client, and the input left after the greeting or the error. */
  datatype Negotiation = Negotiation(written: seq<byte>, result: Result<seq<byte>, Error>)

  /** msgLen: version, method count and `nmethod` method bytes. */
  function GreetingLen(nmethod: byte): nat {
    nmethod + 2
  }

  /** A client's method-selection message offering `methods`. */
  function Greeting(methods: seq<byte>): seq<byte>
    requires |methods| < 256
  {
    [SocksVer5, |methods|] + methods
  }

  /**
   * handShake on a connection whose input is `s`; `arrived` is how much of
   * it the first read finds, and `writeFails` whether the reply write fails.
   */
  function HandShake(s: seq<byte>, arrived: nat, writeFails: bool): (r: Negotiation)
    ensures r.result.Err? ==> r.written == []
    ensures r.result.Ok? ==> r.written == MethodReply
    ensures |s| < 2 ==> r.result == Err(ReadFailed(EndError(|s|)))
    ensures 2 <= |s| && s[0] != SocksVer5 ==> r.result == Err(ErrVer)
    ensures 2 <= |s| && s[0] == SocksVer5 && GreetingLen(s[1]) < Delivered(|s|, GreetingBufLen, 2, arrived) ==>
              r.result == Err(ErrAuthExtraData)
    ensures r.result.Ok? <==>
              && 2 <= |s| && s[0] == SocksVer5
              && Delivered(|s|, GreetingBufLen, 2, arrived) <= GreetingLen(s[1]) <= |s|
              && !writeFails
    ensures 2 <= |s| && s[0] == SocksVer5 && |s| < GreetingLen(s[1]) ==>
              r.result == Err(ReadFailed(EndError(|s| - Delivered(|s|, GreetingBufLen, 2, arrived))))
    ensures (2 <= |s| && s[0] == SocksVer5 && Delivered(|s|, GreetingBufLen, 2, arrived) <= GreetingLen(s[1]) <= |s|
             && writeFails) ==> r.result == Err(WriteFailed)
    ensures r.result.Ok? ==> r.result.value == s[GreetingLen(s[1])..]
  {
    match ReadAtLeast(s, GreetingBufLen, 2, arrived)
    case Err(e) => Negotiation([], Err(ReadFailed(e)))
    case Ok(first) =>
      var buf := first.data;
      if buf[0] != SocksVer5 then Negotiation([], Err(ErrVer))
      else
        var msgLen := GreetingLen(buf[1]);
        var n := |buf|;
        var completed: Result<seq<byte>, Error> :=
          if n == msgLen then Ok(first.rest)
          else if n < msgLen then
            match ReadFull(first.rest, msgLen - n)
            case Err(e) => Err(ReadFailed(e))
            case Ok(more) => Ok(more.rest)
          else Err(ErrAuthExtraData);
        match completed
        case Err(e) => Negotiation([], Err(e))
        case Ok(rest) =>
          if writeFails then Negotiation([], Err(WriteFailed)) else Negotiation(MethodReply, Ok(rest))
  }

  /** A well-formed greeting is answered with "no authentication", whatever methods it lists. */
  lemma HandShakeAcceptsGreeting(methods: seq<byte>, rest: seq<byte>, arrived: nat)
    requires |methods| < 256 && arrived <= |Greeting(methods)|
    ensures HandShake(Greeting(methods) + rest, arrived, false) == Negotiation(MethodReply, Ok(rest))
  {
    var s := Greeting(methods) + rest;
    assert s[0] == SocksVer5 && s[1] == |methods|;
    assert s[GreetingLen(s[1])..] == rest;
  }

  // ---- getRequest ----

  /** What getRequest returns: the ATYP..PORT slice, the destination, and the input left after the request. */
  datatype Request = Request(rawaddr: seq<byte>, host: string, rest: seq<byte>)

  /** A CONNECT request for `a`; `rsv` is whatever the client put in the reserved byte. */
  function ConnectRequest(rsv: byte, a: Address.Addr): seq<byte>
    requires Address.Valid(a)
  {
    [SocksVer5, SocksCmdConnect, rsv] + Address.Encode(a)
  }

  /** reqLen for a request whose first five bytes are known: the header, then the ATYP..PORT span. */
  function RequestLen(s: seq<byte>): (r: Option<nat>)
    requires RequestMinRead <= |s|
    ensures r.Some? <==> Address.RawLen(s[3], s[4]).Some?
    ensures r.Some? ==> r.value == HeaderLen + Address.RawLen(s[3], s[4]).value && r.value < RequestBufLen
  {
    match Address.RawLen(s[3], s[4])
    case None => None
    case Some(k) => Some(HeaderLen + k)
  }

  /**
   * The framing of getRequest once the first read `first` has delivered
   * the header, ATYP and the length byte: complete buf[:reqLen] with
   * ReadFull, or reject surplus bytes.
   */
  function CompleteRequest(first: Chunk, reqLen: nat): (r: Result<Chunk, Error>)
    ensures var s, n := first.data + first.rest, |first.data|;
            && (r.Ok? <==> n <= reqLen <= |s|)
            && (reqLen < n ==> r == Err(ErrReqExtraData))
            && (|s| < reqLen ==> r == Err(ReadFailed(EndError(|s| - n))))
            && (r.Ok? ==> r.value.data == s[..reqLen] && r.value.rest == s[reqLen..])
  {
    var buf, n := first.data, |first.data|;
    if n == reqLen then
      assert (buf + first.rest)[..n] == buf;
      Ok(first)
    else if n < reqLen then
      match ReadFull(first.rest, reqLen - n)
      case Err(e) => Err(ReadFailed(e))
      case Ok(more) =>
        assert buf + (more.data + more.rest) == buf + more.data + more.rest;
        assert (buf + more.data + more.rest)[..reqLen] == buf + more.data;
        Ok(Chunk(buf + more.data, more.rest))
    else Err(ErrReqExtraData)
  }

  /**
   * The framing half of getRequest: read at least five bytes, check VER, CMD
   * and ATYP in that order, and complete the frame buf[:reqLen]. The result
   * is the frame and the input after it.
   */
  function ReadRequest(s: seq<byte>, arrived: nat): (r: Result<Chunk, Error>)
    ensures |s| < RequestMinRead ==> r == Err(ReadFailed(EndError(|s|)))
    ensures RequestMinRead <= |s| && s[0] != SocksVer5 ==> r == Err(VersionError)
    ensures RequestMinRead <= |s| && s[0] == SocksVer5 && s[1] != SocksCmdConnect ==> r == Err(ErrCmd)
    ensures RequestMinRead <= |s| && s[0] == SocksVer5 && s[1] == SocksCmdConnect && RequestLen(s).None? ==>
              r == Err(ErrAddrType)
    ensures RequestMinRead <= |s| && s[0] == SocksVer5 && s[1] == SocksCmdConnect && RequestLen(s).Some? ==>
              var reqLen := RequestLen(s).value;
              var n := Delivered(|s|, RequestBufLen, RequestMinRead, arrived);
              && (r.Ok? <==> n <= reqLen <= |s|)
              && (reqLen < n ==> r == Err(ErrReqExtraData))
              && (|s| < reqLen ==> r == Err(ReadFailed(EndError(|s| - n))))
    ensures r.Ok? ==>
              && RequestMinRead <= |s| && RequestLen(s).Some? && RequestLen(s).value <= |s|
              && r.value.data == s[..RequestLen(s).value] && r.value.rest == s[RequestLen(s).value..]
  {
    match ReadAtLeast(s, RequestBufLen, RequestMinRead, arrived)
    case Err(e) => Err(ReadFailed(e))
    case Ok(first) =>
      var buf := first.data;
      if buf[0] != SocksVer5 then Err(VersionError)
      else if buf[1] != SocksCmdConnect then Err(ErrCmd)
      else match RequestLen(buf)
        case None => Err(ErrAddrType)
        case Some(reqLen) => CompleteRequest(first, reqLen)
  }

  /** A frame ReadRequest accepts is a prefix of the input whose ATYP..PORT part is exactly as long as announced. */
  lemma ReadRequestFramed(s: seq<byte>, arrived: nat)
    requires ReadRequest(s, arrived).Ok?
    ensures var req := ReadRequest(s, arrived).value;
            && HeaderLen + 2 <= |req.data|
            && req.data + req.rest == s
            && Address.Framed(req.data[HeaderLen..])
  {
    PrefixFramed(s, RequestLen(s).value);
  }

  /** The first reqLen bytes of a request are a header and a framed address span. */
  lemma PrefixFramed(s: seq<byte>, k: nat)
    requires RequestMinRead <= |s| && RequestLen(s) == Some(k) && k <= |s|
    ensures HeaderLen + 2 <= k && s[..k] + s[k..] == s && Address.Framed(s[..k][HeaderLen..])
  {
    var raw := s[..k][HeaderLen..];
    assert |raw| == k - HeaderLen && raw[0] == s[3] && raw[1] == s[4];
  }

  /**
   * getRequest as corrected: the domain end index is computed without
   * wrap-around, so every domain length is read.
   */
  function GetRequest(s: seq<byte>, arrived: nat, ip6Text: seq<byte> -> string): (r: Result<Request, Error>)
    ensures |s| < RequestMinRead ==> r == Err(ReadFailed(EndError(|s|)))
    ensures RequestMinRead <= |s| && s[0] != SocksVer5 ==> r == Err(VersionError)
    ensures RequestMinRead <= |s| && s[0] == SocksVer5 && s[1] != SocksCmdConnect ==> r == Err(ErrCmd)
    ensures RequestMinRead <= |s| && s[0] == SocksVer5 && s[1] == SocksCmdConnect && RequestLen(s).None? ==>
              r == Err(ErrAddrType)
    ensures RequestMinRead <= |s| && s[0] == SocksVer5 && s[1] == SocksCmdConnect && RequestLen(s).Some? ==>
              var reqLen := RequestLen(s).value;
              var n := Delivered(|s|, RequestBufLen, RequestMinRead, arrived);
              && (r.Ok? <==> n <= reqLen <= |s|)
              && (reqLen < n ==> r == Err(ErrReqExtraData))
              && (|s| < reqLen ==> r == Err(ReadFailed(EndError(|s| - n))))
    ensures r.Ok? ==>
              && RequestMinRead <= |s| && RequestLen(s).Some? && RequestLen(s).value <= |s|
              && r.value.rawaddr == s[HeaderLen..RequestLen(s).value]
              && r.value.rest == s[RequestLen(s).value..]
              && Address.Decode(r.value.rawaddr).Some?
              && r.value.host == Address.HostPort(Address.Decode(r.value.rawaddr).value, ip6Text)
  {
    match ReadRequest(s, arrived)
    case Err(e) => Err(e)
    case Ok(req) =>
      var buf := req.data;
      ReadRequestFramed(s, arrived);
      Ok(Request(buf[HeaderLen..], Address.HostAt(buf, HeaderLen, ip6Text), req.rest))
  }

  /**
   * getRequest as written: `idDm0 + buf[idDmLen]` is byte arithmetic, so a
   * domain of 251 bytes or more makes the host slice inverted and the
   * parser panics. In every other case it agrees with GetRequest.
   */
  function GetRequestAsWritten(s: seq<byte>, arrived: nat, ip6Text: seq<byte> -> string): (r: Result<Request, Error>)
    ensures r == Err(SlicePanic) <==>
              ReadRequest(s, arrived).Ok? && s[HeaderLen] == Address.TypeDomain && 251 <= s[RequestMinRead - 1]
    ensures r != Err(SlicePanic) ==> r == GetRequest(s, arrived, ip6Text)
  {
    match ReadRequest(s, arrived)
    case Err(e) => Err(e)
    case Ok(req) =>
      var buf := req.data;
      ReadRequestFramed(s, arrived);
      assert buf[HeaderLen] == s[HeaderLen] && buf[HeaderLen + 1] == s[RequestMinRead - 1];
      match Address.HostAtAsWritten(buf, HeaderLen, ip6Text)
      case None => Err(SlicePanic)
      case Some(host) => Ok(Request(buf[HeaderLen..], host, req.rest))
  }

  /** A CONNECT request whose first read ends within it yields exactly its address span and destination. */
  lemma GetRequestRoundTrip(rsv: byte, a: Address.Addr, rest: seq<byte>, arrived: nat, ip6Text: seq<byte> -> string)
    requires Address.Valid(a) && arrived <= |ConnectRequest(rsv, a)|
    ensures GetRequest(ConnectRequest(rsv, a) + rest, arrived, ip6Text)
            == Ok(Request(Address.Encode(a), Address.HostPort(a, ip6Text), rest))
  {
    var raw := Address.Encode(a);
    var s := ConnectRequest(rsv, a) + rest;
    AfterHeader([SocksVer5, SocksCmdConnect, rsv], raw, rest);
    assert RequestLen(s) == Some(HeaderLen + |raw|);
    Address.DecodeEncode(a);
  }

  lemma AfterHeader(header: seq<byte>, raw: seq<byte>, rest: seq<byte>)
    requires |header| == HeaderLen && 2 <= |raw|
    ensures var s := header + raw + rest;
            && s[HeaderLen..HeaderLen + |raw|] == raw && s[HeaderLen + |raw|..] == rest
            && s[..HeaderLen] == header && s[3] == raw[0] && s[4] == raw[1]
  {
  }

  /** The reserved byte is never inspected: changing it changes nothing getRequest returns. */
  lemma RsvIgnored(s: seq<byte>, rsv: byte, arrived: nat, ip6Text: seq<byte> -> string)
    requires HeaderLen <= |s|
    ensures GetRequest(s[2 := rsv], arrived, ip6Text) == GetRequest(s, arrived, ip6Text)
  {
    var t := s[2 := rsv];
    var r, q := GetRequest(t, arrived, ip6Text), GetRequest(s, arrived, ip6Text);
    if RequestMinRead <= |s| && s[0] == SocksVer5 && s[1] == SocksCmdConnect && RequestLen(s).Some? {
      assert RequestLen(t) == RequestLen(s);
      var k := RequestLen(s).value;
      if k <= |s| {
        assert t[HeaderLen..k] == s[HeaderLen..k];
        assert t[k..] == s[k..];
      }
    }
  }

  /** A domain of 251..255 bytes sends the source's parser into a slice panic. */
  lemma LongDomainPanics(rsv: byte, name: seq<byte>, port: nat, rest: seq<byte>, arrived: nat, ip6Text: seq<byte> -> string)
    requires 251 <= |name| < 256 && port < 0x1_0000
    requires arrived <= |ConnectRequest(rsv, Address.Domain(name, port))|
    ensures GetRequestAsWritten(ConnectRequest(rsv, Address.Domain(name, port)) + rest, arrived, ip6Text)
            == Err(SlicePanic)
  {
    var a := Address.Domain(name, port);
    var s := ConnectRequest(rsv, a) + rest;
    GetRequestRoundTrip(rsv, a, rest, arrived, ip6Text);
    assert s[3] == Address.TypeDomain && s[4] == |name|;
  }

  /** `05 01 00 01 7F 00 00 01 1F 90` asks for 127.0.0.1:8080. */
  lemma RequestExample(ip6Text: seq<byte> -> string)
    ensures GetRequest([5, 1, 0, 1, 0x7F, 0, 0, 1, 0x1F, 0x90], 10, ip6Text)
            == Ok(Request([1, 0x7F, 0, 0, 1, 0x1F, 0x90], "127.0.0.1:8080", []))
  {
    var a := Address.IPv4([0x7F, 0, 0, 1], 8080);
    Address.LoopbackExample(ip6Text);
    assert ConnectRequest(0, a) + [] == [5, 1, 0, 1, 0x7F, 0, 0, 1, 0x1F, 0x90];
    GetRequestRoundTrip(0, a, [], 10, ip6Text);
  }

  /** The same request with `AA BB CC` arriving in its first read is refused. */
  lemma ExtraDataExample(ip6Text: seq<byte> -> string)
    ensures GetRequest([5, 1, 0, 1, 0x7F, 0, 0, 1, 0x1F, 0x90, 0xAA, 0xBB, 0xCC], 13, ip6Text)
            == Err(ErrReqExtraData)
  {
    var s: seq<byte> := [5, 1, 0, 1, 0x7F, 0, 0, 1, 0x1F, 0x90, 0xAA, 0xBB, 0xCC];
    assert RequestLen(s) == Some(10);
    assert Delivered(|s|, RequestBufLen, RequestMinRead, 13) == 13;
  }

  /** `05 01 00` is accepted; `04 01 00` has the wrong version; `05 02 00 00 FF` read at once carries a byte too many. */
  lemma HandShakeExamples()
    ensures HandShake([5, 1, 0], 3, false) == Negotiation(MethodReply, Ok([]))
    ensures HandShake([4, 1, 0], 3, false).result == Err(ErrVer)
    ensures HandShake([5, 2, 0, 0, 0xFF], 5, false).result == Err(ErrAuthExtraData)
  {
    HandShakeAcceptsGreeting([0], [], 3);
    assert Greeting([0]) + [] == [5, 1, 0];
  }

  // ---- handleSocks5Client ----

  /** Which writes to the client fail: the method reply, the connect reply. */
  datatype Faults = Faults(methodReply: bool, connectReply: bool)

  /** The destination the mux stream was given, and the client input the relay carries from here on. */
  datatype Relay = Relay(host: string, pending: seq<byte>)

  /** What handleSocks5Client wrote to the client and to the mux stream before relaying, and how it ended. */
  datatype Session = Session(toClient: seq<byte>, toMux: seq<byte>, result: Result<Relay, Error>)

  /** `part` is what is left of `input` once some prefix of it has been consumed. */
  predicate TailOf(input: seq<byte>, part: seq<byte>)
  {
    |part| <= |input| && input[|input| - |part|..] == part
  }

  /**
   * What the mux stream receives before relaying: `toMux` is an address
   * span naming `relay.host`, and `toMux` followed by the input the relay
   * carries on with is the tail of `input`.
   */
  predicate ForwardsTail(input: seq<byte>, toMux: seq<byte>, relay: Relay, ip6Text: seq<byte> -> string)
  {
    && Address.Decode(toMux).Some?
    && relay.host == Address.HostPort(Address.Decode(toMux).value, ip6Text)
    && TailOf(input, toMux + relay.pending)
  }

  /**
   * handleSocks5Client after the handshake, on the input `t` left after the
   * greeting: the request, the connect reply, then the raw address to the
   * mux stream. The mux write's error is ignored by the source. The parser
   * is the one as written, so a long domain ends the stage in a panic
   * before the connect reply.
   */
  function RequestStage(t: seq<byte>, arrived: nat, connectReplyFails: bool,
                        ip6Text: seq<byte> -> string): (r: Session)
    ensures r.toClient == [] || r.toClient == ConnectReply
    ensures r.toClient == ConnectReply <==> r.result.Ok?
    ensures r.result.Ok? <==> r.toMux != []
    ensures r.result.Ok? ==> r.toClient == ConnectReply && ForwardsTail(t, r.toMux, r.result.value, ip6Text)
    ensures r.result == Err(SlicePanic) <==>
              ReadRequest(t, arrived).Ok? && t[HeaderLen] == Address.TypeDomain && 251 <= t[RequestMinRead - 1]
    ensures r.result == Err(SlicePanic) ==> r.toClient == [] && r.toMux == []
    ensures GetRequestAsWritten(t, arrived, ip6Text).Err? ==>
              r == Session([], [], Err(GetRequestAsWritten(t, arrived, ip6Text).error))
    ensures GetRequestAsWritten(t, arrived, ip6Text).Ok? ==>
              var req := GetRequestAsWritten(t, arrived, ip6Text).value;
              && (r.result.Ok? <==> !connectReplyFails)
              && (connectReplyFails ==> r == Session([], [], Err(WriteFailed)))
              && (r.result.Ok? ==> r.toMux == req.rawaddr && r.result.value == Relay(req.host, req.rest))
  {
    match GetRequestAsWritten(t, arrived, ip6Text)
    case Err(e) => Session([], [], Err(e))
    case Ok(req) =>
      if connectReplyFails then Session([], [], Err(WriteFailed))
      else
        TailOfSlices(t, HeaderLen, RequestLen(t).value);
        Session(ConnectReply, req.rawaddr, Ok(Relay(req.host, req.rest)))
  }

  /** What forwards the tail of a suffix of `s` forwards the tail of `s`. */
  lemma ForwardsTailOfSuffix(s: seq<byte>, k: nat, toMux: seq<byte>, relay: Relay, ip6Text: seq<byte> -> string)
    requires k <= |s| && ForwardsTail(s[k..], toMux, relay, ip6Text)
    ensures ForwardsTail(s, toMux, relay, ip6Text)
  {
    TailOfSuffix(s, k, toMux + relay.pending);
  }

  lemma TailOfSuffix(s: seq<byte>, k: nat, part: seq<byte>)
    requires k <= |s| && TailOf(s[k..], part)
    ensures TailOf(s, part)
  {
    assert s[|s| - |part|..] == s[k..][|s[k..]| - |part|..];
  }

  lemma TailOfSlices(t: seq<byte>, i: nat, k: nat)
    requires i <= k <= |t|
    ensures TailOf(t, t[i..k] + t[k..])
  {
    assert t[i..] == t[i..k] + t[k..];
  }

  /** handleSocks5Client: handshake, then the request stage; the client hears the method reply first. */
  function HandleSocks5Client(s: seq<byte>, arrived1: nat, arrived2: nat, faults: Faults,
                              ip6Text: seq<byte> -> string): (r: Session)
    ensures r.toClient == [] || r.toClient == MethodReply || r.toClient == MethodReply + ConnectReply
    ensures r.toClient == MethodReply + ConnectReply <==> r.result.Ok?
    ensures r.result.Ok? <==> r.toMux != []
    ensures r.result.Ok? ==>
              r.toClient == MethodReply + ConnectReply && ForwardsTail(s, r.toMux, r.result.value, ip6Text)
    ensures HandShake(s, arrived1, faults.methodReply).result.Err? ==>
              r == Session([], [], Err(HandShake(s, arrived1, faults.methodReply).result.error))
    ensures r.result == Err(SlicePanic) ==> r.toClient == MethodReply && r.toMux == []
    ensures HandShake(s, arrived1, faults.methodReply).result.Ok? ==>
              var st := RequestStage(HandShake(s, arrived1, faults.methodReply).result.value, arrived2,
                                     faults.connectReply, ip6Text);
              r == Session(MethodReply + st.toClient, st.toMux, st.result)
  {
    var hs := HandShake(s, arrived1, faults.methodReply);
    match hs.result
    case Err(e) => Session([], [], Err(e))
    case Ok(afterGreeting) =>
      var req := RequestStage(afterGreeting, arrived2, faults.connectReply, ip6Text);
      match req.result
      case Err(e) => Session(MethodReply + req.toClient, [], Err(e))
      case Ok(relay) =>
        ForwardsTailOfSuffix(s, GreetingLen(s[1]), req.toMux, relay, ip6Text);
        Session(MethodReply + ConnectReply, req.toMux, Ok(relay))
  }

  /** A destination the client parser reads as written: any IP address, or a domain shorter than 251 bytes. */
  predicate ParsedAsWritten(a: Address.Addr)
  {
    a.Domain? ==> |a.name| < 251
  }

  /**
   * After the greeting, a CONNECT request whose destination the parser reads
   * gets the connect reply, and the mux stream gets its address span.
   */
  lemma RequestStageRoundTrip(rsv: byte, a: Address.Addr, payload: seq<byte>, arrived: nat,
                              ip6Text: seq<byte> -> string)
    requires Address.Valid(a) && ParsedAsWritten(a) && arrived <= |ConnectRequest(rsv, a)|
    ensures RequestStage(ConnectRequest(rsv, a) + payload, arrived, false, ip6Text)
            == Session(ConnectReply, Address.Encode(a), Ok(Relay(Address.HostPort(a, ip6Text), payload)))
  {
    AsWrittenRoundTrip(rsv, a, payload, arrived, ip6Text);
  }

  /** On such a destination the parser as written gives what the corrected one gives. */
  lemma AsWrittenRoundTrip(rsv: byte, a: Address.Addr, payload: seq<byte>, arrived: nat,
                           ip6Text: seq<byte> -> string)
    requires Address.Valid(a) && ParsedAsWritten(a) && arrived <= |ConnectRequest(rsv, a)|
    ensures GetRequestAsWritten(ConnectRequest(rsv, a) + payload, arrived, ip6Text)
            == Ok(Request(Address.Encode(a), Address.HostPort(a, ip6Text), payload))
  {
    var t := ConnectRequest(rsv, a) + payload;
    GetRequestRoundTrip(rsv, a, payload, arrived, ip6Text);
    assert t[HeaderLen] == Address.Encode(a)[0] && t[RequestMinRead - 1] == Address.Encode(a)[1];
    assert a.Domain? ==> Address.Encode(a)[1] == |a.name|;
  }

  /**
   * A client that sends a greeting, a CONNECT request and then its payload
   * gets the method reply and the fixed connect reply; the mux stream gets
   * exactly the request's address span, and the payload is left for the relay.
   */
  lemma ClientSessionRoundTrip(methods: seq<byte>, rsv: byte, a: Address.Addr, payload: seq<byte>,
                               arrived1: nat, arrived2: nat, ip6Text: seq<byte> -> string)
    requires |methods| < 256 && Address.Valid(a) && ParsedAsWritten(a)
    requires arrived1 <= |Greeting(methods)| && arrived2 <= |ConnectRequest(rsv, a)|
    ensures HandleSocks5Client(Greeting(methods) + ConnectRequest(rsv, a) + payload, arrived1, arrived2,
                               Faults(false, false), ip6Text)
            == Session(MethodReply + ConnectReply, Address.Encode(a),
                       Ok(Relay(Address.HostPort(a, ip6Text), payload)))
  {
    var t := ConnectRequest(rsv, a) + payload;
    assert Greeting(methods) + ConnectRequest(rsv, a) + payload == Greeting(methods) + t;
    AfterGreeting(methods, t, arrived1, arrived2, Faults(false, false), ip6Text);
    RequestStageRoundTrip(rsv, a, payload, arrived2, ip6Text);
  }

  /**
   * Once a well-formed greeting is answered, the session is the request
   * stage on the input after the greeting, with the method reply written
   * before anything the request stage writes.
   */
  lemma AfterGreeting(methods: seq<byte>, t: seq<byte>, arrived1: nat, arrived2: nat, faults: Faults,
                      ip6Text: seq<byte> -> string)
    requires |methods| < 256 && arrived1 <= |Greeting(methods)| && !faults.methodReply
    ensures var st := RequestStage(t, arrived2, faults.connectReply, ip6Text);
            HandleSocks5Client(Greeting(methods) + t, arrived1, arrived2, faults, ip6Text)
            == Session(MethodReply + st.toClient, st.toMux, st.result)
  {
    HandShakeAcceptsGreeting(methods, t, arrived1);
  }

  /**
   * A client asking for a domain of 251..255 bytes hears the method reply
   * and nothing more: the parser panics before the connect reply, and the
   * mux stream receives nothing.
   */
  lemma LongDomainSessionPanics(methods: seq<byte>, rsv: byte, name: seq<byte>, port: nat, payload: seq<byte>,
                                arrived1: nat, arrived2: nat, connectReplyFails: bool,
                                ip6Text: seq<byte> -> string)
    requires |methods| < 256 && 251 <= |name| < 256 && port < 0x1_0000
    requires arrived1 <= |Greeting(methods)| && arrived2 <= |ConnectRequest(rsv, Address.Domain(name, port))|
    ensures HandleSocks5Client(Greeting(methods) + ConnectRequest(rsv, Address.Domain(name, port)) + payload,
                               arrived1, arrived2, Faults(false, connectReplyFails), ip6Text)
            == Session(MethodReply, [], Err(SlicePanic))
  {
    var t := ConnectRequest(rsv, Address.Domain(name, port)) + payload;
    assert Greeting(methods) + ConnectRequest(rsv, Address.Domain(name, port)) + payload == Greeting(methods) + t;
    AfterGreeting(methods, t, arrived1, arrived2, Faults(false, connectReplyFails), ip6Text);
    LongDomainPanics(rsv, name, port, payload, arrived2, ip6Text);
  }

  // ---- getOriginalDst ----

  /**
   * The 16-byte buffer the original-destination lookup fills: two bytes of
   * address family, the port in network order, the IPv4 address, eight more bytes.
   */
  function OriginalDstStruct(family: seq<byte>, ip: seq<byte>, port: nat, zero: seq<byte>): (addr: seq<byte>)
    requires |family| == 2 && |ip| == 4 && port < 0x1_0000 && |zero| == 8
    ensures |addr| == 16
  {
    family + PutBigEndian16(port) + ip + zero
  }

  /**
   * getOriginalDst after the lookup: a lookup error is passed on; otherwise
   * the result names the IPv4 endpoint in bytes 4..8 and 2..4.
   */
  function GetOriginalDst<E>(lookup: Result<seq<byte>, E>): (r: Result<string, E>)
    requires lookup.Ok? ==> |lookup.value| == 16
    ensures lookup.Err? ==> r == Err(lookup.error)
    ensures lookup.Ok? ==>
              r.Ok? && Text.NamesEndpoint(r.value, lookup.value[4..8], BigEndian16(lookup.value[2..4]))
  {
    match lookup
    case Err(e) => Err(e)
    case Ok(addr) =>
      var port := BigEndian16(addr[2..4]);
      Text.JoinNamesEndpoint(addr[4..8], port);
      Ok(Text.JoinHostPort(Text.DottedQuad(addr[4..8]), Text.Itoa(port)))
  }

  /** Only bytes 2..8 of the structure matter. */
  lemma OriginalDstIgnoresOtherBytes(a: seq<byte>, b: seq<byte>)
    requires |a| == 16 && |b| == 16 && a[2..8] == b[2..8]
    ensures GetOriginalDst<()>(Ok(a)) == GetOriginalDst<()>(Ok(b))
  {
    assert a[2..4] == a[2..8][..2] && b[2..4] == b[2..8][..2];
    assert a[4..8] == a[2..8][2..] && b[4..8] == b[2..8][2..];
  }

  /** The structure filled for a redirected connection to ip:port names exactly that endpoint. */
  lemma OriginalDstRoundTrip(family: seq<byte>, ip: seq<byte>, port: nat, zero: seq<byte>)
    requires |family| == 2 && |ip| == 4 && port < 0x1_0000 && |zero| == 8
    ensures var r := GetOriginalDst<()>(Ok(OriginalDstStruct(family, ip, port, zero)));
            r.Ok? && Text.NamesEndpoint(r.value, ip, port)
  {
    var addr := OriginalDstStruct(family, ip, port, zero);
    assert addr[2..4] == PutBigEndian16(port);
    assert addr[4..8] == ip;
  }
}
